=== FILE: README.md ===
# Auth router model

A Dafny model of the authentication router of a small Express/PostgreSQL
back end (`routes/auth.js`). The model covers:

- `POST /register`: creates a user and, optionally, an organisation owned by that user;
- `POST /login`: checks credentials, stamps `last_login` and issues a JSON Web Token;
- `GET /me`: returns the stored profile and memberships of the token's user;
- `POST /logout`: answers once the token passes the gate and revokes nothing;
- the `authenticateToken` gate in front of the last two;
- the organisation slug derived from an organisation name.

Each route is a pure function. It takes:

- an environment: the libraries, the clock and bcrypt's salt;
- the database tables;
- the request;
- a fault: the awaited call that throws, if any.

It returns an `Outcome`:

- the HTTP response;
- the tables afterwards;
- the bookkeeping of the pooled connection: whether one was acquired and how many times it was released.

Modules, one per concern:

| file | module | what it holds |
|---|---|---|
| `wrappers.dfy` | `Wrappers` | `Option` |
| `text.dfy` | `Text` | express-validator's `trim()` (validator's `ltrim`/`rtrim` on the `\s` set) and `split`/`join` on one separator, with their round trips |
| `slugs.dfy` | `Slugs`, `SlugExamples` | the four-step slug pipeline, its well-formedness, idempotence and order lemmas, a reference definition (dash-joined words), worked examples |
| `database.dfy` | `Database` | the `users`, `organizations` and `organization_members` tables, the queries the router runs, and the key integrity (`Valid`) every write keeps |
| `tokens.dfy` | `Tokens` | bcrypt, jsonwebtoken and express-validator's email rules as function-valued parameters, and `Lawful`, the facts the router relies on |
| `responses.dfy` | `Responses` | messages, response bodies (no user view has a password-hash field), connection bookkeeping, the throwing steps |
| `middleware.dfy` | `Middleware` | `authenticateToken` |
| `register.dfy` | `RegisterRoute` | `POST /register` |
| `login.dfy` | `LoginRoute` | `POST /login` |
| `session.dfy` | `SessionRoutes` | `GET /me`, `POST /logout` |
| `scenarios.dfy` | `Scenarios` | request sequences: register twice, register then login, register then `/me` |

Exceptions are modelled, not excluded. Each `catch` block answers 500 and does
not call `client.release()`. The connection afterwards depends on the step that threw:

- `db.connect()` throws: no connection was acquired (`NoConnection`);
- `jwt.sign` throws: the connection was already released, once (`ReleasedOnce`), since the release comes before signing;
- any step in between throws: the connection stays acquired and is never released (`Leaked`).

Writes made before the throw stay in the tables, because the router uses no
transaction. This is the code's behaviour, and the model keeps it.

## Model

| member | source | states |
|---|---|---|
| Text.Trim | routes/auth.js:11-12 | the sanitised name is the input with a leading and a trailing run of whitespace removed; neither end of the result is whitespace |
| Text.TrimIdempotent | routes/auth.js:11-12 | trimming a trimmed value changes nothing |
| Text.JoinSplit | routes/auth.js:246 | the pieces of `split(' ')` contain no space, and joining them with a space gives back the header |
| Text.Split | routes/auth.js:246 | `split(' ')` always yields at least one piece; what the pieces are is stated by Text.JoinSplit and Text.SplitJoin |
| Text.SplitJoin | routes/auth.js:246 | splitting a join of space-free words gives back the words |
| Slugs.LowerChar | routes/auth.js:52 | `toLowerCase` on one character as the slug observes it: A-Z to a-z, U+0130 to "i" and U+0307, U+212A to "k", every other character kept |
| Slugs.Lower | routes/auth.js:52 | lower-cases character by character (Slugs.LowerAppend) and leaves [a-z0-9-] text unchanged (Slugs.LowerKeepsSlugChars) |
| Slugs.Mask | routes/auth.js:53 | same length; every character outside [a-z0-9] becomes '-', every other is kept |
| Slugs.Collapse | routes/auth.js:54 | never lengthens the text; its run semantics are stated by Slugs.CollapseShape, Slugs.UndashCollapse and Slugs.SeparateIgnoresCollapse |
| Slugs.CollapseShape | routes/auth.js:54 | collapsing keeps the first and last characters, introduces no character and leaves no "--" |
| Slugs.UndashCollapse | routes/auth.js:54 | collapsing dash runs removes dashes only |
| Slugs.SeparateIgnoresCollapse | routes/auth.js:54 | collapsing dash runs does not change which [a-z0-9] words are read or where single dashes go between them |
| Slugs.TrimDash | routes/auth.js:55 | never lengthens the text; what it removes is stated by Slugs.UndashTrimDash and Slugs.TrimDashKeepsForm |
| Slugs.UndashTrimDash | routes/auth.js:55 | stripping the edge dashes removes dashes only |
| Slugs.TrimDashKeepsForm | routes/auth.js:55 | stripping one leading and one trailing dash from a [a-z0-9-] string without "--" leaves a well-formed slug |
| Slugs.Slug | routes/auth.js:52-55 | the slug of a name; its meaning is stated by Slugs.SlugIsJoinedWords, Slugs.SlugIsWellFormed and Slugs.SlugKeepsAlnumsInOrder |
| Slugs.SlugIsWellFormed | routes/auth.js:52-55 | the slug uses only [a-z0-9-], never contains "--", and does not start or end with '-' |
| Slugs.SlugFixesSlugs | routes/auth.js:52-55 | a well-formed slug is its own slug |
| Slugs.SlugIdempotent | routes/auth.js:52-55 | deriving a slug from a slug changes nothing |
| Slugs.SlugKeepsAlnumsInOrder | routes/auth.js:52-55 | removing the dashes from the slug leaves exactly the lower-cased name's [a-z0-9] characters, in order |
| Slugs.SlugEmptyIffNoAlnum | routes/auth.js:52-55 | the slug is empty exactly when the lower-cased name has no [a-z0-9] character |
| Slugs.SlugIsJoinedWords | routes/auth.js:52-55 | the slug equals the maximal [a-z0-9] words of the lower-cased name joined by single dashes |
| SlugExamples.SlugOfMyOrg | routes/auth.js:52-55 | "My Org!!" gets the slug "my-org" |
| SlugExamples.SlugOfPaddedName | routes/auth.js:52-55 | " Foo  Bar " gets the slug "foo-bar" |
| Database.FindUserByEmail | routes/auth.js:28-31 | the lookup finds a row with that email, and finds none exactly when no row has it |
| Database.FindUserById | routes/auth.js:196-199 | the lookup finds a row with that id, and finds none exactly when no row has it |
| Database.FindUniqueEmail | routes/auth.js:121-131 | with unique emails, the row found for a stored email is that row |
| Database.FindUniqueId | routes/auth.js:196-206 | with unique ids, the row found for a stored id is that row |
| Database.TouchLastLogin | routes/auth.js:147-150 | the update sets `last_login` on the rows with that id and leaves every other row as it was |
| Database.InsertUser | routes/auth.js:42-45 | one row with the next id, role 'user', status 'active', email verified; that it keeps the keys is Database.InsertUserKeepsValid |
| Database.InsertOrganization | routes/auth.js:57-60 | one organisation with the next id, plan 'free', status 'active'; Database.InsertOrganizationKeepsValid |
| Database.InsertMembership | routes/auth.js:65-68 | one membership row; Database.InsertMembershipKeepsValid |
| Database.InsertUserKeepsValid | routes/auth.js:42-45 | inserting a user whose email is new keeps ids and emails unique and below the counter |
| Database.InsertOrganizationKeepsValid | routes/auth.js:57-60 | inserting an organisation keeps organisation ids unique |
| Database.InsertMembershipKeepsValid | routes/auth.js:65-68 | a membership naming issued user and organisation ids keeps the references intact |
| Database.TouchLastLoginKeepsValid | routes/auth.js:147-150 | stamping `last_login` changes no key |
| Database.JoinMembership | routes/auth.js:153-158 | a membership row joins with exactly the organisations of its id, carrying its role |
| Database.MembershipsOf | routes/auth.js:153-158 | the join of `/login` and, with the status column, of `/me` (lines 209-214); its content is stated by Database.MembershipsOfMeaning |
| Database.MembershipsOfMeaning | routes/auth.js:153-158 | an (organisation, role) pair is listed for a user exactly when a membership row of that user points at that organisation with that role |
| Tokens.EmailAccepted | routes/auth.js:9 | `isEmail()` on the email: accepted exactly when an email is present and the validator accepts it; a missing email is rejected (also line 104) |
| Middleware.BearerToken | routes/auth.js:245-246 | a token found is non-empty and contains no space; which text it is is stated by Middleware.BearerTokenBetweenSpaces |
| Middleware.Authenticate | routes/auth.js:244-259 | the request passes exactly when there is a token, it verifies, and it is unexpired, and then with the decoded claims; otherwise 401 "Access token required" exactly when no token, else 403 "Invalid token" |
| Middleware.BearerTokenBetweenSpaces | routes/auth.js:245-246 | the token is exactly the text between the first space and the next space or the end; none when that text is empty |
| Middleware.BearerTokenNeedsSpace | routes/auth.js:245-250 | a header without a space carries no token |
| Middleware.BearerTokenIgnoresScheme | routes/auth.js:246 | for a space-free first word and token, the token is found whatever the first word is |
| Middleware.AuthenticateIgnoresScheme | routes/auth.js:244-259 | two headers that differ only in the scheme word get the same verdict |
| Middleware.ExpiredTokenRefused | routes/auth.js:252-255 | a well-signed but expired token is refused with 403 |
| Middleware.SignedTokenGranted | routes/auth.js:244-259 | an unexpired token the router signed, sent as "Bearer " + token, passes with exactly its claims |
| Responses.UserViewOf | routes/auth.js:87-92 | the `user` object of register and login (also lines 176-181): id, email, full name and role of the row; the view type has no password-hash field |
| Responses.LoginViewsAreMeViewsWithoutStatus | routes/auth.js:153-158 | `/login` lists the same membership rows as `/me` (lines 209-214), in the same order and field for field, except that it leaves out the organisation's status, which `/me` reports |
| RegisterRoute.PasswordAccepted | routes/auth.js:10 | a password is accepted exactly when present with at least 8 characters (part of RegisterRoute.ValidExactlyWhenAllAccepted) |
| RegisterRoute.FullNameAccepted | routes/auth.js:11 | a full name is accepted exactly when present with at least 2 characters once trimmed |
| RegisterRoute.OrganizationNameAccepted | routes/auth.js:12 | an organisation name is accepted when absent, or when it has at least 2 characters once trimmed |
| RegisterRoute.Rejected | routes/auth.js:14-18 | a field is listed exactly when it is in the chain and its validator rejects it, and a list in chain order stays in chain order |
| RegisterRoute.RegisterErrors | routes/auth.js:9-18 | the details list exactly the rejected fields, each once, in the order of the validator chain (email, password, full name, organisation name) |
| RegisterRoute.ValidExactlyWhenAllAccepted | routes/auth.js:9-15 | validation passes exactly when the email is accepted, the password has at least 8 characters, the trimmed full name has at least 2, and the organisation name is absent or has at least 2 once trimmed |
| RegisterRoute.Sanitized | routes/auth.js:12-22 | an organisation name is read exactly when one was sent, and then it has at least 2 characters |
| RegisterRoute.NewUser | routes/auth.js:42-45 | the row a successful registration inserts: the sanitised email and name, the password's hash, role 'user', status 'active' |
| RegisterRoute.IssueRegistration | routes/auth.js:71-94 | the connection is released once before signing; 201 exactly when signing does not throw; the tables are not touched |
| RegisterRoute.CreateAccount | routes/auth.js:24-99 | the answer is an error or a registration; at most one release; every non-500 exit releases what it acquired; a 500 after connecting leaks the connection unless signing threw |
| RegisterRoute.Register | routes/auth.js:8-100 | the same release discipline for the whole route |
| RegisterRoute.RegisterRejectsInvalidInput | routes/auth.js:14-20 | invalid input gets 400 "Validation failed" with its rejected fields, the tables unchanged and no connection taken; only invalid input gets that answer |
| RegisterRoute.RegisterRejectsExistingEmail | routes/auth.js:27-36 | a valid request for a stored email gets 400 "User already exists", the tables unchanged, the connection released once |
| RegisterRoute.CreateAccountSucceeds | routes/auth.js:38-94 | 201 exactly when the email is new and no step on the path throws; then one user (role 'user', status 'active', verified), and an organisation ('free', 'active', owned by the user) plus an 'owner' membership exactly when a name was given; the token carries the new user's id, email and role |
| RegisterRoute.RegisterSucceeds | routes/auth.js:8-100 | the whole route answers 201 exactly when the input is valid, the sanitised email is new and no step on the path throws, with the effects above |
| RegisterRoute.CreateAccountPartialWrite | routes/auth.js:49-99 | when the organisation insert throws, the user row stays, no organisation or membership is written, the answer is 500 and the connection leaks |
| RegisterRoute.RegisterPartialWrite | routes/auth.js:49-99 | the same for the whole route |
| RegisterRoute.CreateAccountKeepsStoreValid | routes/auth.js:24-99 | every path, including half-finished ones, keeps the tables' keys intact |
| RegisterRoute.RegisterKeepsStoreValid | routes/auth.js:8-100 | the same for the whole route |
| LoginRoute.LoginErrors | routes/auth.js:103-111 | the details list the email exactly when it fails `isEmail`, and the password exactly when it is missing, in that order |
| LoginRoute.Welcome | routes/auth.js:146-181 | after the password matched, the only possible change is the `last_login` update of that user |
| LoginRoute.SignIn | routes/auth.js:115-188 | answers only 200, 401 or 500; the tables change only when the email names an active account whose hash matches the password; at most one release; every non-500 exit releases what it acquired; a 500 after connecting leaks unless signing threw |
| LoginRoute.Login | routes/auth.js:103-189 | the same release discipline for the whole route |
| LoginRoute.LoginRejectsInvalidInput | routes/auth.js:107-113 | invalid input gets 400 with its rejected fields, the tables unchanged and no connection taken; only invalid input gets 400 |
| LoginRoute.LoginSeesOnlyNormalizedEmail | routes/auth.js:104-123 | two valid emails with the same normalised form get the same answer and the same effects |
| LoginRoute.WrongEmailAndWrongPasswordAlike | routes/auth.js:126-144 | an unknown email and a wrong password for an active account both get 401 "Invalid credentials", the tables unchanged, the connection released once |
| LoginRoute.UnauthorizedOnlyForBadCredentials | routes/auth.js:126-144 | "Invalid credentials" is given only for an unknown email or a wrong password for an active account |
| LoginRoute.InactiveAccountRefused | routes/auth.js:133-136 | an account that is not 'active' gets 401 "Account is not active", whatever the password |
| LoginRoute.SignInSucceedsExactly | routes/auth.js:115-183 | 200 exactly when the email names an active account, the password matches its hash and no step on the path throws |
| LoginRoute.SignInSuccess | routes/auth.js:146-183 | on 200 only that account's `last_login` changes; the token carries the stored row's id, email and role; the organisations are the account's memberships |
| LoginRoute.SignInTouchesOnlyTheAccount | routes/auth.js:147-150 | with unique ids, only the logged-in row changes, and only its `last_login` |
| LoginRoute.SignInPartialWrite | routes/auth.js:146-188 | when the membership query throws, the `last_login` update stays, the answer is 500 and the connection leaks |
| LoginRoute.SignInKeepsStoreValid | routes/auth.js:115-188 | every login path keeps the tables' keys intact |
| LoginRoute.LoginKeepsStoreValid | routes/auth.js:103-189 | the same for the whole route |
| SessionRoutes.ProfileOf | routes/auth.js:219-227 | the `/me` user object: id, email, full name, role, status, creation time and last login of the stored row |
| SessionRoutes.MeHandler | routes/auth.js:193-234 | tables unchanged; answers only 200, 404 or 500; at most one release; every non-500 exit releases what it acquired |
| SessionRoutes.Me | routes/auth.js:192-235 | a denied request gets the gate's answer without touching the database; 200 only with a granted token; tables unchanged |
| SessionRoutes.Logout | routes/auth.js:238-241 | 200 "Logout successful" exactly when the gate grants, otherwise the gate's own 401 or 403 answer; no table or connection touched |
| SessionRoutes.MeReadsOnlyTheId | routes/auth.js:196-199 | the token's email and role are not read; only its user id matters |
| SessionRoutes.MeReturnsStoredRow | routes/auth.js:196-229 | the profile is the stored row of the token's user (whatever its status), with that user's memberships and their status |
| SessionRoutes.MeUserGone | routes/auth.js:201-204 | 404 "User not found" exactly when no row has the token's user id |
| SessionRoutes.LogoutDoesNotRevoke | routes/auth.js:238-241 | after logging out, the same token gets the same answers as before |
| Scenarios.RegisterTwice | routes/auth.js:27-36 | registering a registered email again gets 400 "User already exists" and changes nothing |
| Scenarios.RegisterThenLogin | routes/auth.js:115-183 | after registering, logging in with the same email and password succeeds; the token carries the new user's id, email and role 'user'; the organisations listed are the one created with the account, as 'owner' |
| Scenarios.OwnedAfterRegistration | routes/auth.js:57-68 | a new account's memberships are exactly the organisation created with it, with the role 'owner' |
| Scenarios.RegisterTokenOpensMe | routes/auth.js:192-229 | the token a registration returns, while unexpired, opens `/me` on the new account: status 'active', created now, never logged in |

## Left out

- Server bootstrapping and the other routes are not part of this model. That covers `server.js`, `fixed-server.js`, `working-server.js`, `test-server.js`, `healthcheck.js`, `routes/billing.js` and `routes/retell.js`. They wire Express, serve files, call external APIs or return fixed JSON.
- bcrypt, jsonwebtoken and express-validator's email rules are parameters (`Crypto`, `EmailRules`). `Lawful` assumes only three facts:
  - a password matches its own hash;
  - a signed token verifies to its claims;
  - a token is non-empty and has no spaces.
  Nothing is assumed about hash collisions, including bcrypt's truncation at 72 bytes. Expiry (`'7d'`) is the `unexpired` flag that `verify` reports. `verify` takes no time argument, so a token's flag is fixed and does not depend on the request's `now`: "unexpired" in the lemmas means the token as `verify` judges it, not its age at a given later request.
- The JWT secret, the expiry setting and console logging are environment configuration and output. They are not modelled.
- SQL runs against in-memory sequences.
  - The tables' counters stand in for `SERIAL` ids. `created_at` and `last_login` take the request's `now`.
  - The join returns rows in membership order. PostgreSQL promises no order without `ORDER BY`.
- Concurrency is not modelled. The check for an existing email and the insert are not atomic, so two concurrent registrations race. Only the unique index would settle that race, and the model runs one request at a time.
- Request bodies are strings or absent. JSON numbers, arrays or objects in the body are not modelled, and neither is what validators and bcrypt do with them.
- Validation `details` list the rejected field names only. Each entry's `msg`, `value` and `location` are left out.
- RegisterRoute.PasswordAccepted counts every character (Unicode scalar value). validator's `isLength` also counts code points, but it does not count U+FE0E or U+FE0F, so the two differ only on passwords that contain those two characters.
- RegisterRoute.FullNameAccepted counts every character, where `isLength` skips U+FE0E and U+FE0F, so the two differ only on full names that contain those two characters.
- RegisterRoute.OrganizationNameAccepted counts every character, where `isLength` skips U+FE0E and U+FE0F, so the two differ only on organisation names that contain those two characters.
- Slugs.Lower models `toLowerCase` only as far as the slug can observe it. It covers A-Z, U+0130 and U+212A. Every other character outside [a-z0-9] lower-cases to characters outside [a-z0-9], and the slug makes those a dash either way.
- Connection bookkeeping counts acquisitions and releases only. The pool's own size and queueing are not modelled.

=== FILE: database.dfy ===
/** The three tables the auth router reads and writes (`users`, `organizations`,
    `organization_members`), held in memory. Rows keep insertion order; a lookup
    returns the first matching row, as `rows[0]` does in the router. Row ids are
    handed out from counters, standing in for the database's serial columns. */
module Database {
  import opened Wrappers

  /** A row of `users`. `createdAt` and `lastLogin` are timestamps; `lastLogin`
      is NULL until the first successful login. */
  datatype User = User(
    id: nat,
    email: string,
    passwordHash: string,
    fullName: string,
    role: string,
    status: string,
    emailVerified: bool,
    createdAt: int,
    lastLogin: Option<int>)

  /** A row of `organizations`. */
  datatype Organization = Organization(
    id: nat,
    name: string,
    slug: string,
    ownerId: nat,
    plan: string,
    status: string)

  /** A row of `organization_members`. */
  datatype Membership = Membership(userId: nat, organizationId: nat, role: string)

  datatype Store = Store(
    users: seq<User>,
    organizations: seq<Organization>,
    memberships: seq<Membership>,
    nextUserId: nat,
    nextOrganizationId: nat)

  /** The integrity the database's keys give: ids are unique and below their
      counters, emails are unique, and memberships point at issued ids. */
  ghost predicate Valid(st: Store)
  {
    && (forall i, j :: 0 <= i < j < |st.users| ==>
          st.users[i].id != st.users[j].id && st.users[i].email != st.users[j].email)
    && (forall i :: 0 <= i < |st.users| ==> st.users[i].id < st.nextUserId)
    && (forall i, j :: 0 <= i < j < |st.organizations| ==>
          st.organizations[i].id != st.organizations[j].id)
    && (forall i :: 0 <= i < |st.organizations| ==>
          st.organizations[i].id < st.nextOrganizationId)
    && (forall i :: 0 <= i < |st.memberships| ==>
          st.memberships[i].userId < st.nextUserId
          && st.memberships[i].organizationId < st.nextOrganizationId)
  }

  /** `SELECT ... FROM users WHERE email = $1`, first row. */
  function FindUserByEmail(users: seq<User>, email: string): (r: Option<User>)
    ensures r.Some? ==> r.value in users && r.value.email == email
    ensures r.None? <==> forall i :: 0 <= i < |users| ==> users[i].email != email
  {
    if users == [] then None
    else if users[0].email == email then Some(users[0])
    else FindUserByEmail(users[1..], email)
  }

  /** `SELECT ... FROM users WHERE id = $1`, first row. */
  function FindUserById(users: seq<User>, id: nat): (r: Option<User>)
    ensures r.Some? ==> r.value in users && r.value.id == id
    ensures r.None? <==> forall i :: 0 <= i < |users| ==> users[i].id != id
  {
    if users == [] then None
    else if users[0].id == id then Some(users[0])
    else FindUserById(users[1..], id)
  }

  /** With unique emails, the row found is the one row with that email. */
  lemma FindUniqueEmail(st: Store, i: nat)
    requires Valid(st) && i < |st.users|
    ensures FindUserByEmail(st.users, st.users[i].email) == Some(st.users[i])
  {
    var r := FindUserByEmail(st.users, st.users[i].email);
    var k :| 0 <= k < |st.users| && st.users[k] == r.value;
  }

  /** With unique ids, the row found is the one row with that id. */
  lemma FindUniqueId(st: Store, i: nat)
    requires Valid(st) && i < |st.users|
    ensures FindUserById(st.users, st.users[i].id) == Some(st.users[i])
  {
    var r := FindUserById(st.users, st.users[i].id);
    var k :| 0 <= k < |st.users| && st.users[k] == r.value;
  }

  /** `INSERT INTO users (email, password_hash, full_name, role, status,
      email_verified) VALUES (..., 'user', 'active', true)`; `created_at` takes the
      database default, the current time. */
  function InsertUser(st: Store, email: string, passwordHash: string, fullName: string,
                      now: int): (r: (Store, User))
  {
    var u := User(st.nextUserId, email, passwordHash, fullName, "user", "active", true, now, None);
    (st.(users := st.users + [u], nextUserId := st.nextUserId + 1), u)
  }

  /** `INSERT INTO organizations (name, slug, owner_id, plan, status) VALUES
      (..., 'free', 'active')`. */
  function InsertOrganization(st: Store, name: string, slug: string, ownerId: nat)
    : (r: (Store, Organization))
  {
    var o := Organization(st.nextOrganizationId, name, slug, ownerId, "free", "active");
    (st.(organizations := st.organizations + [o],
         nextOrganizationId := st.nextOrganizationId + 1), o)
  }

  /** `INSERT INTO organization_members (user_id, organization_id, role)`. */
  function InsertMembership(st: Store, userId: nat, organizationId: nat, role: string)
    : (r: Store)
  {
    st.(memberships := st.memberships + [Membership(userId, organizationId, role)])
  }

  /** `UPDATE users SET last_login = CURRENT_TIMESTAMP WHERE id = $1`. */
  function TouchLastLogin(users: seq<User>, id: nat, now: int): (r: seq<User>)
    ensures |r| == |users|
    ensures forall i :: 0 <= i < |users| ==>
              r[i] == (if users[i].id == id then users[i].(lastLogin := Some(now)) else users[i])
  {
    if users == [] then []
    else [if users[0].id == id then users[0].(lastLogin := Some(now)) else users[0]]
         + TouchLastLogin(users[1..], id, now)
  }

  /** The unique index on `users.email` is what makes a new row with a fresh
      email keep the store's keys intact. */
  lemma InsertUserKeepsValid(st: Store, email: string, passwordHash: string,
                             fullName: string, now: int)
    requires Valid(st)
    requires forall i :: 0 <= i < |st.users| ==> st.users[i].email != email
    ensures Valid(InsertUser(st, email, passwordHash, fullName, now).0)
  {
  }

  lemma InsertOrganizationKeepsValid(st: Store, name: string, slug: string, ownerId: nat)
    requires Valid(st)
    ensures Valid(InsertOrganization(st, name, slug, ownerId).0)
  {
  }

  /** A membership row keeps the keys intact when both ids it names were issued. */
  lemma InsertMembershipKeepsValid(st: Store, userId: nat, organizationId: nat, role: string)
    requires Valid(st)
    requires userId < st.nextUserId && organizationId < st.nextOrganizationId
    ensures Valid(InsertMembership(st, userId, organizationId, role))
  {
  }

  /** Touching `last_login` changes no key. */
  lemma TouchLastLoginKeepsValid(st: Store, id: nat, now: int)
    requires Valid(st)
    ensures Valid(st.(users := TouchLastLogin(st.users, id, now)))
  {
  }

  /** One membership row joined with `organizations` (`ON o.id =
      om.organization_id`): each matching organization with the member's role. */
  function JoinMembership(orgs: seq<Organization>, m: Membership)
    : (r: seq<(Organization, string)>)
    ensures forall p :: p in r <==> p.0 in orgs && p.0.id == m.organizationId && p.1 == m.role
  {
    if orgs == [] then []
    else (if orgs[0].id == m.organizationId then [(orgs[0], m.role)] else [])
         + JoinMembership(orgs[1..], m)
  }

  /** `SELECT o.*, om.role FROM organizations o JOIN organization_members om ON
      o.id = om.organization_id WHERE om.user_id = $1`, in membership order. */
  function MembershipsOf(orgs: seq<Organization>, members: seq<Membership>, userId: nat)
    : (r: seq<(Organization, string)>)
  {
    if members == [] then []
    else (if members[0].userId == userId then JoinMembership(orgs, members[0]) else [])
         + MembershipsOf(orgs, members[1..], userId)
  }

  /** A pair is in the join exactly when some membership row of the user points at
      that organization with that role. */
  lemma {:induction false} MembershipsOfMeaning(orgs: seq<Organization>, members: seq<Membership>,
                                                userId: nat, p: (Organization, string))
    ensures p in MembershipsOf(orgs, members, userId) <==>
              exists k :: 0 <= k < |members| && members[k].userId == userId
                          && members[k].organizationId == p.0.id && members[k].role == p.1
                          && p.0 in orgs
    decreases |members|
  {
    if members != [] {
      MembershipsOfMeaning(orgs, members[1..], userId, p);
      if p in MembershipsOf(orgs, members[1..], userId) {
        var k :| 0 <= k < |members[1..]| && members[1..][k].userId == userId
                 && members[1..][k].organizationId == p.0.id && members[1..][k].role == p.1;
        assert members[k + 1] == members[1..][k];
      }
      if exists k :: 0 <= k < |members| && members[k].userId == userId
                     && members[k].organizationId == p.0.id && members[k].role == p.1
                     && p.0 in orgs {
        var k :| 0 <= k < |members| && members[k].userId == userId
                 && members[k].organizationId == p.0.id && members[k].role == p.1
                 && p.0 in orgs;
        if k > 0 {
          assert members[1..][k - 1] == members[k];
        }
      }
    }
  }

  lemma {:induction false} MembershipsOfAppend(orgs: seq<Organization>, a: seq<Membership>,
                                               b: seq<Membership>, userId: nat)
    ensures MembershipsOf(orgs, a + b, userId)
         == MembershipsOf(orgs, a, userId) + MembershipsOf(orgs, b, userId)
    decreases |a|
  {
    if a == [] {
      assert a + b == b;
    } else {
      assert (a + b)[0] == a[0];
      assert (a + b)[1..] == a[1..] + b;
      MembershipsOfAppend(orgs, a[1..], b, userId);
    }
  }

  /** A row appended after rows that all have other emails is the one found. */
  lemma FindAppendedEmail(users: seq<User>, u: User)
    requires forall i :: 0 <= i < |users| ==> users[i].email != u.email
    ensures FindUserByEmail(users + [u], u.email) == Some(u)
  {
    var r := FindUserByEmail(users + [u], u.email);
    assert (users + [u])[|users|] == u;
    var k :| 0 <= k < |users + [u]| && (users + [u])[k] == r.value;
    if k < |users| {
      assert (users + [u])[k] == users[k];
    }
  }

  /** A user without membership rows belongs to no organisation. */
  lemma {:induction false} MembershipsOfNone(orgs: seq<Organization>, members: seq<Membership>,
                                             userId: nat)
    requires forall k :: 0 <= k < |members| ==> members[k].userId != userId
    ensures MembershipsOf(orgs, members, userId) == []
    decreases |members|
  {
    if members != [] {
      assert members[0].userId != userId;
      MembershipsOfNone(orgs, members[1..], userId);
    }
  }

  /** A membership joined with the table after a fresh organisation was appended
      yields exactly that organisation. */
  lemma {:induction false} JoinFreshOrganization(orgs: seq<Organization>, org: Organization,
                                                 m: Membership)
    requires forall i :: 0 <= i < |orgs| ==> orgs[i].id != m.organizationId
    requires org.id == m.organizationId
    ensures JoinMembership(orgs + [org], m) == [(org, m.role)]
    decreases |orgs|
  {
    if orgs == [] {
      assert [] + [org] == [org];
      assert [org][1..] == [];
    } else {
      assert (orgs + [org])[0] == orgs[0];
      assert (orgs + [org])[1..] == orgs[1..] + [org];
      JoinFreshOrganization(orgs[1..], org, m);
    }
  }
}

=== FILE: login.dfy ===
/** `POST /login` (routes/auth.js:103-189). */
module LoginRoute {
  import opened Wrappers
  import opened Database
  import opened Tokens
  import opened Responses

  /** The request body; a field the client left out is `None`. */
  datatype LoginBody = LoginBody(email: Option<string>, password: Option<string>)

  /** `validationResult(req).array()` for `isEmail()` on the email and `exists()` on
      the password, in that order. `exists()` accepts any present password, even "". */
  function LoginErrors(rules: EmailRules, b: LoginBody): (r: seq<Field>)
    ensures Email in r <==> !EmailAccepted(rules, b.email)
    ensures Password in r <==> b.password.None?
    ensures FullName !in r && OrganizationName !in r
    ensures r == [] <==> EmailAccepted(rules, b.email) && b.password.Some?
    ensures |r| <= 2 && (|r| == 2 ==> r == [Email, Password])
  {
    (if EmailAccepted(rules, b.email) then [] else [Email])
    + (if b.password.Some? then [] else [Password])
  }

  function LoginError(st: Store, pool: Pool): (o: Outcome)
  {
    Outcome(Response(500, Error(LoginFailed)), st, pool)
  }

  /** The answer to a wrong email and to a wrong password alike. */
  function Unauthorized(st: Store): (o: Outcome)
  {
    Outcome(Response(401, Error(InvalidCredentials)), st, ReleasedOnce)
  }

  /** The handler body (lines 115-188) for a request that passed validation, with
      the normalised email. */
  function SignIn(env: Env, st: Store, email: string, password: string, fault: Fault)
    : (o: Outcome)
    ensures o.pool.releases <= 1
    ensures o.response.status != 500 ==> ReleasesWhatItHolds(o.pool)
    ensures o.response.status == 500 && o.pool.acquired ==>
              (o.pool.releases == 0 <==> fault != Some(SignToken))
    ensures o.response.status in {200, 401, 500}
    ensures o.store != st ==>
              && FindUserByEmail(st.users, email).Some?
              && FindUserByEmail(st.users, email).value.status == "active"
              && env.crypto.compare(password, FindUserByEmail(st.users, email).value.passwordHash)
  {
    if fault == Some(Connect) then LoginError(st, NoConnection)
    else if fault == Some(FindUser) then LoginError(st, Leaked)
    else match FindUserByEmail(st.users, email)
      case None => Unauthorized(st)
      case Some(u) =>
        if u.status != "active" then
          Outcome(Response(401, Error(AccountNotActive)), st, ReleasedOnce)
        else if fault == Some(ComparePassword) then LoginError(st, Leaked)
        else if !env.crypto.compare(password, u.passwordHash) then Unauthorized(st)
        else Welcome(env, st, u, fault)
  }

  /** Lines 146-181, once the password matched: stamp `last_login`, read the
      memberships, release, sign. */
  function Welcome(env: Env, st: Store, u: User, fault: Fault): (o: Outcome)
    ensures o.store == st || o.store == st.(users := TouchLastLogin(st.users, u.id, env.now))
  {
    if fault == Some(UpdateLastLogin) then LoginError(st, Leaked)
    else
      var st1 := st.(users := TouchLastLogin(st.users, u.id, env.now));
      if fault == Some(FindMemberships) then LoginError(st1, Leaked)
      else
        var orgs := MembershipViews(MembershipsOf(st1.organizations, st1.memberships, u.id),
                                    false);
        if fault == Some(SignToken) then LoginError(st1, ReleasedOnce)
        else
          var token := env.crypto.sign(Claims(u.id, u.email, u.role), env.now);
          Outcome(Response(200, LoggedIn("Login successful", token, UserViewOf(u), orgs)),
                  st1, ReleasedOnce)
  }

  /** The whole route: validation (lines 103-113), then the handler body. */
  function Login(env: Env, st: Store, b: LoginBody, fault: Fault): (o: Outcome)
    ensures o.pool.releases <= 1
    ensures o.response.status != 500 ==> ReleasesWhatItHolds(o.pool)
    ensures o.response.status == 500 && o.pool.acquired ==>
              (o.pool.releases == 0 <==> fault != Some(SignToken))
  {
    var errors := LoginErrors(env.emails, b);
    if errors != [] then
      Outcome(Response(400, Invalid(ValidationFailed, errors)), st, NoConnection)
    else
      SignIn(env, st, env.emails.normalize(b.email.value), b.password.value, fault)
  }

  // ---------------------------------------------------------------------------
  // Properties

  /** The steps a login that gets as far as the token reaches. */
  predicate OnLoginPath(step: Step)
  {
    step in {Connect, FindUser, ComparePassword, UpdateLastLogin, FindMemberships, SignToken}
  }

  /** Invalid input is answered 400 with the rejected fields before a connection is
      taken, and only invalid input is. */
  lemma LoginRejectsInvalidInput(env: Env, st: Store, b: LoginBody, fault: Fault)
    ensures var o := Login(env, st, b, fault);
            var errors := LoginErrors(env.emails, b);
            (errors != [] ==>
               o == Outcome(Response(400, Invalid(ValidationFailed, errors)), st, NoConnection))
            && (o.response.status == 400 <==> errors != [])
  {
  }

  /** An unknown email and a wrong password for an active account get the same
      answer, so the response does not tell which accounts exist. */
  lemma WrongEmailAndWrongPasswordAlike(env: Env, st: Store, email: string, password: string,
                                        fault: Fault)
    requires fault != Some(Connect) && fault != Some(FindUser) && fault != Some(ComparePassword)
    requires match FindUserByEmail(st.users, email)
             case None => true
             case Some(u) => u.status == "active" && !env.crypto.compare(password, u.passwordHash)
    ensures SignIn(env, st, email, password, fault) == Unauthorized(st)
  {
  }

  /** Conversely, "Invalid credentials" is given only for those two causes. */
  lemma UnauthorizedOnlyForBadCredentials(env: Env, st: Store, email: string, password: string,
                                          fault: Fault)
    requires SignIn(env, st, email, password, fault).response
          == Response(401, Error(InvalidCredentials))
    ensures match FindUserByEmail(st.users, email)
            case None => true
            case Some(u) => u.status == "active" && !env.crypto.compare(password, u.passwordHash)
  {
  }

  /** An account whose status is not 'active' is refused before its password is
      looked at: the answer is the same for every password. */
  lemma InactiveAccountRefused(env: Env, st: Store, email: string, p1: string, p2: string,
                               fault: Fault)
    requires fault != Some(Connect) && fault != Some(FindUser)
    requires FindUserByEmail(st.users, email).Some?
    requires FindUserByEmail(st.users, email).value.status != "active"
    ensures SignIn(env, st, email, p1, fault)
         == Outcome(Response(401, Error(AccountNotActive)), st, ReleasedOnce)
    ensures SignIn(env, st, email, p1, fault) == SignIn(env, st, email, p2, fault)
  {
  }

  /** A login succeeds (200) exactly when the email names an active account, the
      password matches its hash and no step on the path throws. */
  lemma SignInSucceedsExactly(env: Env, st: Store, email: string, password: string, fault: Fault)
    ensures SignIn(env, st, email, password, fault).response.status == 200 <==>
              && FindUserByEmail(st.users, email).Some?
              && FindUserByEmail(st.users, email).value.status == "active"
              && env.crypto.compare(password, FindUserByEmail(st.users, email).value.passwordHash)
              && (fault.None? || !OnLoginPath(fault.value))
  {
  }

  /** What a successful login answers and changes: `last_login` of that account
      alone is set to now, no other table changes, the token and the user carry the
      stored row's id, email and role, and the organisations are the account's
      memberships without their status. */
  lemma SignInSuccess(env: Env, st: Store, email: string, password: string, fault: Fault)
    requires SignIn(env, st, email, password, fault).response.status == 200
    ensures FindUserByEmail(st.users, email).Some?
    ensures var u := FindUserByEmail(st.users, email).value;
            var o := SignIn(env, st, email, password, fault);
            && o.store == st.(users := TouchLastLogin(st.users, u.id, env.now))
            && o.pool == ReleasedOnce
            && o.response.body == LoggedIn(
                 "Login successful",
                 env.crypto.sign(Claims(u.id, u.email, u.role), env.now),
                 UserView(u.id, u.email, u.fullName, u.role),
                 MembershipViews(MembershipsOf(st.organizations, st.memberships, u.id), false))
  {
    SignInSucceedsExactly(env, st, email, password, fault);
    var u := FindUserByEmail(st.users, email).value;
    assert SignIn(env, st, email, password, fault) == Welcome(env, st, u, fault);
  }

  /** With unique ids, the one row whose `last_login` a successful login sets is
      the account's; every other row is untouched. */
  lemma SignInTouchesOnlyTheAccount(env: Env, st: Store, email: string, password: string,
                                    fault: Fault, i: nat)
    requires Valid(st)
    requires i < |st.users| && st.users[i].email == email
    requires SignIn(env, st, email, password, fault).response.status == 200
    ensures var users := SignIn(env, st, email, password, fault).store.users;
            && |users| == |st.users|
            && users[i] == st.users[i].(lastLogin := Some(env.now))
            && (forall j :: 0 <= j < |st.users| && j != i ==> users[j] == st.users[j])
  {
    FindUniqueEmail(st, i);
    SignInSuccess(env, st, email, password, fault);
  }

  /** The `UPDATE` is not undone when the membership query throws: `last_login`
      is set, the answer is 500 and the connection is not released. */
  lemma SignInPartialWrite(env: Env, st: Store, email: string, password: string)
    requires SignIn(env, st, email, password, None).response.status == 200
    ensures var o := SignIn(env, st, email, password, Some(FindMemberships));
            && o.response == Response(500, Error(LoginFailed))
            && o.store == SignIn(env, st, email, password, None).store
            && o.pool == Leaked
  {
  }

  /** Two valid emails with the same normalised form log in alike: the account is
      looked up by the normalised email only. */
  lemma LoginSeesOnlyNormalizedEmail(env: Env, st: Store, e1: string, e2: string,
                                     password: Option<string>, fault: Fault)
    requires env.emails.isEmail(e1) && env.emails.isEmail(e2)
    requires env.emails.normalize(e1) == env.emails.normalize(e2)
    ensures Login(env, st, LoginBody(Some(e1), password), fault)
         == Login(env, st, LoginBody(Some(e2), password), fault)
  {
  }

  /** A login that passes validation is `SignIn` on the normalised email. */
  lemma LoginNormalizesEmail(env: Env, st: Store, b: LoginBody, fault: Fault)
    requires LoginErrors(env.emails, b) == []
    ensures b.email.Some? && b.password.Some?
    ensures Login(env, st, b, fault)
         == SignIn(env, st, env.emails.normalize(b.email.value), b.password.value, fault)
  {
  }

  /** A login changes no table but `users`, and there only `last_login`. */
  lemma SignInKeepsStoreValid(env: Env, st: Store, email: string, password: string,
                              fault: Fault)
    requires Valid(st)
    ensures Valid(SignIn(env, st, email, password, fault).store)
  {
    var found := FindUserByEmail(st.users, email);
    if fault !in {Some(Connect), Some(FindUser)} && found.Some?
       && found.value.status == "active" && fault != Some(ComparePassword)
       && env.crypto.compare(password, found.value.passwordHash) {
      var u := found.value;
      assert SignIn(env, st, email, password, fault) == Welcome(env, st, u, fault);
      TouchLastLoginKeepsValid(st, u.id, env.now);
    } else {
      assert SignIn(env, st, email, password, fault).store == st;
    }
  }

  /** Login keeps the tables' keys intact on every path. */
  lemma LoginKeepsStoreValid(env: Env, st: Store, b: LoginBody, fault: Fault)
    requires Valid(st)
    ensures Valid(Login(env, st, b, fault).store)
  {
    if LoginErrors(env.emails, b) == [] {
      SignInKeepsStoreValid(env, st, env.emails.normalize(b.email.value), b.password.value, fault);
    }
  }
}

=== FILE: middleware.dfy ===
/** `authenticateToken` (routes/auth.js:244-259): take the second space-separated
    word of the Authorization header as the token, verify it, and either answer the
    request or pass the decoded claims on to the route handler. */
module Middleware {
  import opened Wrappers
  import opened Text
  import opened Tokens
  import opened Responses

  /** `authHeader && authHeader.split(' ')[1]`, when that is truthy (a non-empty
      string). The first word, the scheme, is not looked at. */
  function BearerToken(header: Option<string>): (r: Option<string>)
    ensures r.Some? ==> r.value != [] && ' ' !in r.value
  {
    match header
    case None => None
    case Some(h) =>
      if h == "" then None
      else
        var words := Split(h, ' ');
        SplitPiecesHaveNoSeparator(h, ' ', []);
        if |words| >= 2 && words[1] != "" then
          assert words[1] in words;
          Some(words[1])
        else None
  }

  /** The gate's verdict: a response that ends the request, or the claims that
      `next()` runs the route with (once). */
  datatype GateResult = Denied(response: Response) | Granted(claims: Claims)

  function Authenticate(k: Crypto, header: Option<string>): (g: GateResult)
    ensures g.Granted? <==>
              && BearerToken(header).Some?
              && k.verify(BearerToken(header).value).Some?
              && k.verify(BearerToken(header).value).value.unexpired
    ensures g.Granted? ==> g.claims == k.verify(BearerToken(header).value).value.claims
    ensures g.Denied? ==>
              g.response in {Response(401, Error(AccessTokenRequired)),
                             Response(403, Error(InvalidToken))}
    ensures g == Denied(Response(401, Error(AccessTokenRequired))) <==> BearerToken(header).None?
  {
    match BearerToken(header)
    case None => Denied(Response(401, Error(AccessTokenRequired)))
    case Some(token) =>
      match k.verify(token)
      case None => Denied(Response(403, Error(InvalidToken)))
      case Some(d) =>
        if d.unexpired then Granted(d.claims) else Denied(Response(403, Error(InvalidToken)))
  }

  /** The token is exactly the text between the header's first space and the next
      space (or the end); when those two are adjacent there is no token. */
  lemma BearerTokenBetweenSpaces(h: string, i: nat, j: nat)
    requires i < j <= |h| && h[i] == ' '
    requires forall k :: 0 <= k < i ==> h[k] != ' '
    requires forall k :: i < k < j ==> h[k] != ' '
    requires j == |h| || h[j] == ' '
    ensures BearerToken(Some(h)) == if j == i + 1 then None else Some(h[i + 1..j])
  {
    var scheme, token, rest := h[..i], h[i + 1..j], h[j..];
    assert ' ' !in scheme by {
      assert forall k :: 0 <= k < |scheme| ==> scheme[k] == h[k];
    }
    assert ' ' !in token by {
      assert forall k :: 0 <= k < |token| ==> token[k] == h[i + 1 + k];
    }
    assert h == scheme + [' '] + (token + rest);
    SplitFromPieceThenSeparator(scheme, token + rest, ' ', []);
    SplitFromSkipsPiece(token, rest, ' ', []);
    assert [] + scheme == scheme && [] + token == token;
    var words := Split(h, ' ');
    assert words == [scheme] + SplitFrom(rest, ' ', token);
    if j == |h| {
      assert rest == [];
    } else {
      assert rest[0] == ' ';
      assert SplitFrom(rest, ' ', token) == [token] + SplitFrom(rest[1..], ' ', []);
    }
    assert words[1] == token;
  }

  /** A header without a space (a bare token, say) carries no token. */
  lemma BearerTokenNeedsSpace(h: string)
    requires ' ' !in h
    ensures BearerToken(Some(h)) == None
  {
    assert h + [] == h;
    SplitFromSkipsPiece(h, [], ' ', []);
    assert [] + h == h;
    assert Split(h, ' ') == [h];
  }

  /** `scheme + " " + token` yields `token` whatever the scheme word is. */
  lemma BearerTokenIgnoresScheme(scheme: string, token: string)
    requires ' ' !in scheme && ' ' !in token && token != []
    ensures BearerToken(Some(scheme + " " + token)) == Some(token)
  {
    var h := scheme + " " + token;
    assert h[|scheme|] == ' ';
    assert forall k :: 0 <= k < |scheme| ==> h[k] == scheme[k];
    assert forall k :: |scheme| < k < |h| ==> h[k] == token[k - |scheme| - 1];
    BearerTokenBetweenSpaces(h, |scheme|, |h|);
    assert h[|scheme| + 1..|h|] == token;
  }

  /** Two headers that differ only in their scheme word get the same verdict. */
  lemma AuthenticateIgnoresScheme(k: Crypto, s1: string, s2: string, token: string)
    requires ' ' !in s1 && ' ' !in s2 && ' ' !in token && token != []
    ensures Authenticate(k, Some(s1 + " " + token)) == Authenticate(k, Some(s2 + " " + token))
  {
    BearerTokenIgnoresScheme(s1, token);
    BearerTokenIgnoresScheme(s2, token);
  }

  /** A well-signed token that has expired is refused with 403, like a forged one. */
  lemma ExpiredTokenRefused(k: Crypto, header: Option<string>)
    requires BearerToken(header).Some?
    requires k.verify(BearerToken(header).value).Some?
    requires !k.verify(BearerToken(header).value).value.unexpired
    ensures Authenticate(k, header) == Denied(Response(403, Error(InvalidToken)))
  {
  }

  /** A token the router signed, presented as `Bearer <token>` while unexpired, lets
      the request through with exactly the claims it was signed with. */
  lemma SignedTokenGranted(k: Crypto, c: Claims, t: int)
    requires Lawful(k)
    requires k.verify(k.sign(c, t)).value.unexpired
    ensures Authenticate(k, Some("Bearer " + k.sign(c, t))) == Granted(c)
  {
    BearerTokenIgnoresScheme("Bearer", k.sign(c, t));
    assert "Bearer" + " " + k.sign(c, t) == "Bearer " + k.sign(c, t);
  }
}

=== FILE: register.dfy ===
/** `POST /register` (routes/auth.js:8-100). */
module RegisterRoute {
  import opened Wrappers
  import opened Text
  import opened Slugs
  import opened Database
  import opened Tokens
  import opened Responses

  /** The request body; a field the client left out is `None`. */
  datatype RegisterBody = RegisterBody(
    email: Option<string>,
    password: Option<string>,
    fullName: Option<string>,
    organizationName: Option<string>)

  // The validator chain, one predicate per field. A missing field is read as "" by
  // `isLength`; `optional()` skips a missing organizationName.

  predicate PasswordAccepted(password: Option<string>)
  {
    password.Some? && |password.value| >= 8
  }

  predicate FullNameAccepted(fullName: Option<string>)
  {
    fullName.Some? && |Trim(fullName.value)| >= 2
  }

  predicate OrganizationNameAccepted(name: Option<string>)
  {
    name.None? || |Trim(name.value)| >= 2
  }

  predicate Accepted(rules: EmailRules, b: RegisterBody, f: Field)
  {
    match f
    case Email => EmailAccepted(rules, b.email)
    case Password => PasswordAccepted(b.password)
    case FullName => FullNameAccepted(b.fullName)
    case OrganizationName => OrganizationNameAccepted(b.organizationName)
  }

  /** The fields of `fields` that `b` fails, in order. */
  function Rejected(rules: EmailRules, b: RegisterBody, fields: seq<Field>): (r: seq<Field>)
    ensures forall f :: f in r <==> f in fields && !Accepted(rules, b, f)
    ensures InChainOrder(fields) ==> InChainOrder(r)
  {
    if fields == [] then []
    else
      assert InChainOrder(fields) ==>
               InChainOrder(fields[1..])
               && forall f :: f in fields[1..] ==> Rank(fields[0]) < Rank(f);
      (if Accepted(rules, b, fields[0]) then [] else [fields[0]])
      + Rejected(rules, b, fields[1..])
  }

  /** `validationResult(req).array()`: the rejected fields, in the order of the
      validator chain. */
  function RegisterErrors(rules: EmailRules, b: RegisterBody): (r: seq<Field>)
    ensures forall f :: f in r <==> !Accepted(rules, b, f)
    ensures InChainOrder(r)
  {
    Rejected(rules, b, [Email, Password, FullName, OrganizationName])
  }

  /** A request passes validation exactly when every field is accepted. */
  lemma ValidExactlyWhenAllAccepted(rules: EmailRules, b: RegisterBody)
    ensures RegisterErrors(rules, b) == [] <==>
              EmailAccepted(rules, b.email) && PasswordAccepted(b.password)
              && FullNameAccepted(b.fullName) && OrganizationNameAccepted(b.organizationName)
  {
    var r := RegisterErrors(rules, b);
    if r != [] {
      assert r[0] in r;
    }
    if !EmailAccepted(rules, b.email) { assert Email in r; }
    if !PasswordAccepted(b.password) { assert Password in r; }
    if !FullNameAccepted(b.fullName) { assert FullName in r; }
    if !OrganizationNameAccepted(b.organizationName) { assert OrganizationName in r; }
  }

  /** The values the handler reads from `req.body` after the sanitisers ran: the
      email normalised, the names trimmed. */
  datatype Registration = Registration(
    email: string,
    password: string,
    fullName: string,
    organizationName: Option<string>)

  function Sanitized(rules: EmailRules, b: RegisterBody): (r: Registration)
    requires RegisterErrors(rules, b) == []
    ensures r.organizationName.Some? <==> b.organizationName.Some?
    ensures r.organizationName.Some? ==> |r.organizationName.value| >= 2
  {
    ValidExactlyWhenAllAccepted(rules, b);
    Registration(rules.normalize(b.email.value), b.password.value, Trim(b.fullName.value),
                 if b.organizationName.Some? then Some(Trim(b.organizationName.value)) else None)
  }

  /** The `users` row a successful registration inserts. */
  function NewUser(env: Env, st: Store, reg: Registration): (u: User)
  {
    User(st.nextUserId, reg.email, env.crypto.hash(reg.password, env.salt), reg.fullName,
         "user", "active", true, env.now, None)
  }

  function RegisterError(st: Store, pool: Pool): (o: Outcome)
  {
    Outcome(Response(500, Error(RegistrationFailed)), st, pool)
  }

  function ClaimsOf(u: User): (c: Claims)
  {
    Claims(u.id, u.email, u.role)
  }

  /** Lines 71-94: release the connection, sign the token, answer 201. */
  function IssueRegistration(env: Env, st: Store, user: User,
                             organization: Option<OrganizationView>, fault: Fault): (o: Outcome)
    ensures o.store == st && o.pool == ReleasedOnce
    ensures o.response.status == 201 <==> fault != Some(SignToken)
  {
    if fault == Some(SignToken) then RegisterError(st, ReleasedOnce)
    else
      var token := env.crypto.sign(ClaimsOf(user), env.now);
      Outcome(Response(201, Registered("Registration successful", token, UserViewOf(user),
                                       organization)),
              st, ReleasedOnce)
  }

  /** Lines 24-99, for input that passed validation. */
  function CreateAccount(env: Env, st: Store, reg: Registration, fault: Fault): (o: Outcome)
    ensures o.response.body.Error? || o.response.body.Registered?
    ensures o.pool.releases <= 1
    ensures o.response.status != 500 ==> ReleasesWhatItHolds(o.pool)
    ensures o.response.status == 500 && o.pool.acquired ==>
              (o.pool.releases == 0 <==> fault != Some(SignToken))
  {
    if fault == Some(Connect) then RegisterError(st, NoConnection)
    else if fault == Some(FindUser) then RegisterError(st, Leaked)
    else if FindUserByEmail(st.users, reg.email).Some? then
      Outcome(Response(400, Error(UserAlreadyExists)), st, ReleasedOnce)
    else if fault == Some(HashPassword) || fault == Some(InsertUserRow) then
      RegisterError(st, Leaked)
    else
      var hashed := env.crypto.hash(reg.password, env.salt);
      var (st1, user) := InsertUser(st, reg.email, hashed, reg.fullName, env.now);
      var orgName := reg.organizationName;
      if orgName.Some? && orgName.value != "" then
        if fault == Some(InsertOrganizationRow) then RegisterError(st1, Leaked)
        else
          var (st2, org) := InsertOrganization(st1, orgName.value, Slug(orgName.value), user.id);
          if fault == Some(InsertMembershipRow) then RegisterError(st2, Leaked)
          else
            var st3 := InsertMembership(st2, user.id, org.id, "owner");
            IssueRegistration(env, st3, user,
                              Some(OrganizationView(org.id, org.name, org.slug, org.plan)), fault)
      else
        IssueRegistration(env, st1, user, None, fault)
  }

  /** The whole route: validation (lines 14-20), then the handler body. */
  function Register(env: Env, st: Store, b: RegisterBody, fault: Fault): (o: Outcome)
    ensures o.pool.releases <= 1
    ensures o.response.status != 500 ==> ReleasesWhatItHolds(o.pool)
    ensures o.response.status == 500 && o.pool.acquired ==>
              (o.pool.releases == 0 <==> fault != Some(SignToken))
  {
    var errors := RegisterErrors(env.emails, b);
    if errors != [] then
      Outcome(Response(400, Invalid(ValidationFailed, errors)), st, NoConnection)
    else
      CreateAccount(env, st, Sanitized(env.emails, b), fault)
  }

  // ---------------------------------------------------------------------------
  // Properties

  /** The steps a registration reaches once its input is valid and its email new. */
  predicate OnRegisterPath(step: Step, withOrganization: bool)
  {
    step in {Connect, FindUser, HashPassword, InsertUserRow, SignToken}
    || (withOrganization && step in {InsertOrganizationRow, InsertMembershipRow})
  }

  /** Invalid input is answered 400 "Validation failed" with the rejected fields,
      before any connection is taken and with the tables untouched; and that answer
      is given only to invalid input. */
  lemma RegisterRejectsInvalidInput(env: Env, st: Store, b: RegisterBody, fault: Fault)
    ensures var o := Register(env, st, b, fault);
            var errors := RegisterErrors(env.emails, b);
            (errors != [] ==>
               o == Outcome(Response(400, Invalid(ValidationFailed, errors)), st, NoConnection))
            && (o.response.body.Invalid? <==> errors != [])
  {
  }

  /** A valid request for an email that already has a row is answered 400 "User
      already exists", the tables untouched and the connection released once. */
  lemma RegisterRejectsExistingEmail(env: Env, st: Store, b: RegisterBody, fault: Fault, i: nat)
    requires RegisterErrors(env.emails, b) == []
    requires fault != Some(Connect) && fault != Some(FindUser)
    requires i < |st.users| && st.users[i].email == Sanitized(env.emails, b).email
    ensures Register(env, st, b, fault)
         == Outcome(Response(400, Error(UserAlreadyExists)), st, ReleasedOnce)
  {
  }

  /** What a successful account creation did: exactly one user inserted (role 'user',
      status 'active', email verified); an organisation (plan 'free', status 'active',
      owned by the new user) and an 'owner' membership inserted if and only if an
      organisation name was given, and nothing else; the token carries the new
      user's id, email and role; the connection released once. */
  ghost predicate CreatedAccount(env: Env, st: Store, reg: Registration, o: Outcome)
  {
    var u := NewUser(env, st, reg);
    && u.role == "user" && u.status == "active" && u.emailVerified
    && o.store.users == st.users + [u]
    && o.store.nextUserId == st.nextUserId + 1
    && o.pool == ReleasedOnce
    && o.response.body.Registered?
    && o.response.body.token == env.crypto.sign(Claims(u.id, u.email, "user"), env.now)
    && o.response.body.user == UserView(u.id, u.email, u.fullName, "user")
    && (reg.organizationName.None? ==>
          && o.store.organizations == st.organizations
          && o.store.memberships == st.memberships
          && o.store.nextOrganizationId == st.nextOrganizationId
          && o.response.body.organization == None)
    && (reg.organizationName.Some? ==>
          var name := reg.organizationName.value;
          var org := Organization(st.nextOrganizationId, name, Slug(name), u.id, "free", "active");
          && o.store.organizations == st.organizations + [org]
          && o.store.memberships == st.memberships + [Membership(u.id, org.id, "owner")]
          && o.store.nextOrganizationId == st.nextOrganizationId + 1
          && o.response.body.organization == Some(OrganizationView(org.id, name, Slug(name), "free")))
  }

  lemma CreateAccountSucceeds(env: Env, st: Store, reg: Registration, fault: Fault)
    requires reg.organizationName.Some? ==> reg.organizationName.value != ""
    ensures var o := CreateAccount(env, st, reg, fault);
            o.response.status == 201 <==>
              && (forall i :: 0 <= i < |st.users| ==> st.users[i].email != reg.email)
              && (fault.None? || !OnRegisterPath(fault.value, reg.organizationName.Some?))
    ensures var o := CreateAccount(env, st, reg, fault);
            o.response.status == 201 ==> CreatedAccount(env, st, reg, o)
  {
  }

  /** A registration succeeds (201) exactly when the input is valid, the email is new
      and no step on its path throws; what it then did is `CreatedAccount`. */
  lemma RegisterSucceeds(env: Env, st: Store, b: RegisterBody, fault: Fault)
    ensures var o := Register(env, st, b, fault);
            o.response.status == 201 <==>
              && RegisterErrors(env.emails, b) == []
              && (forall i :: 0 <= i < |st.users| ==>
                    st.users[i].email != Sanitized(env.emails, b).email)
              && (fault.None? || !OnRegisterPath(fault.value, b.organizationName.Some?))
    ensures var o := Register(env, st, b, fault);
            o.response.status == 201 ==> CreatedAccount(env, st, Sanitized(env.emails, b), o)
  {
    if RegisterErrors(env.emails, b) == [] {
      CreateAccountSucceeds(env, st, Sanitized(env.emails, b), fault);
    }
  }

  /** An exception after the user row is written (the organisation insert throws)
      leaves the user in the table without an organisation: the writes are not one
      transaction. The `catch` block answers 500 and does not release the
      connection. */
  lemma CreateAccountPartialWrite(env: Env, st: Store, reg: Registration)
    requires reg.organizationName.Some? && reg.organizationName.value != ""
    requires forall i :: 0 <= i < |st.users| ==> st.users[i].email != reg.email
    ensures var o := CreateAccount(env, st, reg, Some(InsertOrganizationRow));
            && o.response == Response(500, Error(RegistrationFailed))
            && o.store.users == st.users + [NewUser(env, st, reg)]
            && o.store.organizations == st.organizations
            && o.store.memberships == st.memberships
            && o.pool == Leaked
  {
  }

  lemma RegisterPartialWrite(env: Env, st: Store, b: RegisterBody)
    requires RegisterErrors(env.emails, b) == []
    requires b.organizationName.Some?
    requires forall i :: 0 <= i < |st.users| ==> st.users[i].email != Sanitized(env.emails, b).email
    ensures var o := Register(env, st, b, Some(InsertOrganizationRow));
            && o.response == Response(500, Error(RegistrationFailed))
            && o.store.users == st.users + [NewUser(env, st, Sanitized(env.emails, b))]
            && o.store.organizations == st.organizations
            && o.store.memberships == st.memberships
            && o.pool == Leaked
  {
    CreateAccountPartialWrite(env, st, Sanitized(env.emails, b));
  }

  lemma CreateAccountKeepsStoreValid(env: Env, st: Store, reg: Registration, fault: Fault)
    requires Valid(st)
    ensures Valid(CreateAccount(env, st, reg, fault).store)
  {
    var o := CreateAccount(env, st, reg, fault);
    if fault !in {Some(Connect), Some(FindUser), Some(HashPassword), Some(InsertUserRow)}
       && FindUserByEmail(st.users, reg.email).None? {
      var hashed := env.crypto.hash(reg.password, env.salt);
      var (st1, user) := InsertUser(st, reg.email, hashed, reg.fullName, env.now);
      InsertUserKeepsValid(st, reg.email, hashed, reg.fullName, env.now);
      var orgName := reg.organizationName;
      if orgName.Some? && orgName.value != "" {
        var (st2, org) := InsertOrganization(st1, orgName.value, Slug(orgName.value), user.id);
        InsertOrganizationKeepsValid(st1, orgName.value, Slug(orgName.value), user.id);
        var st3 := InsertMembership(st2, user.id, org.id, "owner");
        InsertMembershipKeepsValid(st2, user.id, org.id, "owner");
        assert o.store in {st1, st2, st3};
      } else {
        assert o.store == st1;
      }
    } else {
      assert o.store == st;
    }
  }

  /** Registration keeps the tables' keys intact on every path, including the ones
      that end in an exception half-way. */
  lemma RegisterKeepsStoreValid(env: Env, st: Store, b: RegisterBody, fault: Fault)
    requires Valid(st)
    ensures Valid(Register(env, st, b, fault).store)
  {
    if RegisterErrors(env.emails, b) == [] {
      CreateAccountKeepsStoreValid(env, st, Sanitized(env.emails, b), fault);
    }
  }
}

=== FILE: responses.dfy ===
/** The JSON responses of the auth router, the pooled connection's bookkeeping, and
    the points at which an awaited call can throw. */
module Responses {
  import opened Wrappers
  import opened Database

  const ValidationFailed := "Validation failed"
  const UserAlreadyExists := "User already exists"
  const RegistrationFailed := "Registration failed"
  const InvalidCredentials := "Invalid credentials"
  const AccountNotActive := "Account is not active"
  const LoginFailed := "Login failed"
  const UserNotFound := "User not found"
  const GetUserFailed := "Failed to get user"
  const AccessTokenRequired := "Access token required"
  const InvalidToken := "Invalid token"

  /** A request body field that a validator rejected, listed in `details`. */
  datatype Field = Email | Password | FullName | OrganizationName

  /** The position of a field in the validator chains: email, password, full name,
      organisation name. */
  function Rank(f: Field): nat
  {
    match f
    case Email => 0
    case Password => 1
    case FullName => 2
    case OrganizationName => 3
  }

  /** Fields listed in chain order, each at most once. */
  predicate InChainOrder(fs: seq<Field>)
  {
    forall i, j :: 0 <= i < j < |fs| ==> Rank(fs[i]) < Rank(fs[j])
  }

  /** `{ id, email, fullName, role }`: the user as returned by register and login,
      without the password hash. */
  datatype UserView = UserView(id: nat, email: string, fullName: string, role: string)

  /** `{ id, email, fullName, role, status, createdAt, lastLogin }` of `/me`. */
  datatype Profile = Profile(id: nat, email: string, fullName: string, role: string,
                             status: string, createdAt: int, lastLogin: Option<int>)

  /** `RETURNING id, name, slug, plan` of the organisation insert. */
  datatype OrganizationView = OrganizationView(id: nat, name: string, slug: string, plan: string)

  /** A row of the membership join; `status` is selected by `/me` only. */
  datatype MembershipView = MembershipView(id: nat, name: string, slug: string, plan: string,
                                           status: Option<string>, role: string)

  datatype Body =
    | Error(error: string)
    | Invalid(error: string, details: seq<Field>)
    | Registered(message: string, token: string, user: UserView,
                 organization: Option<OrganizationView>)
    | LoggedIn(message: string, token: string, user: UserView,
               organizations: seq<MembershipView>)
    | CurrentUser(profile: Profile, organizations: seq<MembershipView>)
    | LoggedOut(message: string)

  datatype Response = Response(status: nat, body: Body)

  /** The request's database connection: whether `db.connect()` handed one out and
      how many times `client.release()` was called on it. */
  datatype Pool = Pool(acquired: bool, releases: nat)

  const NoConnection := Pool(false, 0)
  /** Acquired and never released: what a `catch` block leaves behind. */
  const Leaked := Pool(true, 0)
  const ReleasedOnce := Pool(true, 1)

  /** Every exit that is not an exception releases a connection it acquired,
      exactly once. */
  predicate ReleasesWhatItHolds(p: Pool)
  {
    p.releases == (if p.acquired then 1 else 0)
  }

  /** What a handler returns: the response, the tables afterwards, the connection. */
  datatype Outcome = Outcome(response: Response, store: Store, pool: Pool)

  /** The awaited calls that can throw. */
  datatype Step =
    | Connect | FindUser | HashPassword | InsertUserRow | InsertOrganizationRow
    | InsertMembershipRow | ComparePassword | UpdateLastLogin | FindMemberships | SignToken

  /** The step that throws if the request reaches it, if any. */
  type Fault = Option<Step>

  function UserViewOf(u: User): (v: UserView)
  {
    UserView(u.id, u.email, u.fullName, u.role)
  }

  /** The rows of the membership join as `/login` (`withStatus` false) or `/me`
      (`withStatus` true) select them. */
  function MembershipViews(rows: seq<(Organization, string)>, withStatus: bool)
    : (r: seq<MembershipView>)
  {
    seq(|rows|, i requires 0 <= i < |rows| =>
      MembershipView(rows[i].0.id, rows[i].0.name, rows[i].0.slug, rows[i].0.plan,
                     if withStatus then Some(rows[i].0.status) else None, rows[i].1))
  }

  /** `/login` lists the same memberships as `/me`, row for row and field for field,
      except that it leaves out the organisation's status. */
  lemma LoginViewsAreMeViewsWithoutStatus(rows: seq<(Organization, string)>)
    ensures |MembershipViews(rows, false)| == |MembershipViews(rows, true)| == |rows|
    ensures forall i :: 0 <= i < |rows| ==>
              MembershipViews(rows, false)[i] == MembershipViews(rows, true)[i].(status := None)
    ensures forall i :: 0 <= i < |rows| ==>
              MembershipViews(rows, true)[i].status == Some(rows[i].0.status)
  {
  }
}

=== FILE: scenarios.dfy ===
/** Requests in sequence against one store: what the routes promise each other. */
module Scenarios {
  import opened Wrappers
  import opened Slugs
  import opened Database
  import opened Tokens
  import opened Responses
  import opened Middleware
  import opened RegisterRoute
  import opened LoginRoute
  import opened SessionRoutes

  /** The membership rows a fresh registration gives its user, as login lists them. */
  function OwnedOrganizations(st: Store, reg: Registration): (r: seq<MembershipView>)
  {
    match reg.organizationName
    case None => []
    case Some(name) =>
      [MembershipView(st.nextOrganizationId, name, Slug(name), "free", None, "owner")]
  }

  /** Registering the same email twice: the second request is refused with 400 "User
      already exists" and changes nothing. */
  lemma RegisterTwice(env: Env, env2: Env, st: Store, b: RegisterBody, fault: Fault)
    requires env2.emails == env.emails
    requires RegisterErrors(env.emails, b) == []
    requires forall i :: 0 <= i < |st.users| ==> st.users[i].email != Sanitized(env.emails, b).email
    requires fault != Some(Connect) && fault != Some(FindUser)
    ensures var st1 := Register(env, st, b, None).store;
            Register(env2, st1, b, fault)
            == Outcome(Response(400, Error(UserAlreadyExists)), st1, ReleasedOnce)
  {
    var reg := Sanitized(env.emails, b);
    RegisterSucceeds(env, st, b, None);
    var st1 := Register(env, st, b, None).store;
    var u := NewUser(env, st, reg);
    assert st1.users[|st.users|] == u;
    RegisterRejectsExistingEmail(env2, st1, b, fault, |st.users|);
  }

  /** After a registration, logging in with the same email and password succeeds:
      the token carries the new user's id, email and role 'user', and the
      organisations listed are the one created with the account, if any, with the
      role 'owner'. */
  lemma RegisterThenLogin(env: Env, env2: Env, st: Store, b: RegisterBody)
    requires Lawful(env.crypto) && Valid(st)
    requires env2.crypto == env.crypto && env2.emails == env.emails
    requires RegisterErrors(env.emails, b) == []
    requires forall i :: 0 <= i < |st.users| ==> st.users[i].email != Sanitized(env.emails, b).email
    ensures var reg := Sanitized(env.emails, b);
            var u := NewUser(env, st, reg);
            var o := Login(env2, Register(env, st, b, None).store,
                           LoginBody(b.email, b.password), None);
            && o.response.status == 200
            && o.response.body == LoggedIn(
                 "Login successful",
                 env.crypto.sign(Claims(u.id, u.email, "user"), env2.now),
                 UserView(u.id, u.email, u.fullName, "user"),
                 OwnedOrganizations(st, reg))
  {
    var reg := Sanitized(env.emails, b);
    var u := NewUser(env, st, reg);
    ValidExactlyWhenAllAccepted(env.emails, b);
    RegisterSucceeds(env, st, b, None);
    var st1 := Register(env, st, b, None).store;
    var lb := LoginBody(b.email, b.password);
    assert LoginErrors(env2.emails, lb) == [];
    LoginNormalizesEmail(env2, st1, lb, None);
    FindAppendedEmail(st.users, u);
    assert FindUserByEmail(st1.users, reg.email) == Some(u);
    assert env.crypto.compare(reg.password, u.passwordHash);
    SignInSucceedsExactly(env2, st1, reg.email, reg.password, None);
    SignInSuccess(env2, st1, reg.email, reg.password, None);
    OwnedAfterRegistration(env, st, reg, Register(env, st, b, None));
  }

  /** The memberships of a freshly created account: the organisation created with
      it, if any, with the role 'owner'. */
  lemma OwnedAfterRegistration(env: Env, st: Store, reg: Registration, o: Outcome)
    requires Valid(st) && CreatedAccount(env, st, reg, o)
    ensures MembershipViews(MembershipsOf(o.store.organizations, o.store.memberships,
                                          st.nextUserId), false)
         == OwnedOrganizations(st, reg)
  {
    var uid := st.nextUserId;
    var st1 := o.store;
    var rows := MembershipsOf(st1.organizations, st1.memberships, uid);
    assert forall k :: 0 <= k < |st.memberships| ==> st.memberships[k].userId != uid;
    match reg.organizationName {
      case None =>
        MembershipsOfNone(st1.organizations, st1.memberships, uid);
        assert MembershipViews(rows, false) == [];
      case Some(name) =>
        var org := Organization(st.nextOrganizationId, name, Slug(name), uid, "free", "active");
        var m := Membership(uid, org.id, "owner");
        assert st1.memberships == st.memberships + [m];
        MembershipsOfAppend(st1.organizations, st.memberships, [m], uid);
        MembershipsOfNone(st1.organizations, st.memberships, uid);
        JoinFreshOrganization(st.organizations, org, m);
        assert rows == [(org, "owner")];
        assert MembershipViews(rows, false)
            == [MembershipView(org.id, name, Slug(name), "free", None, "owner")];
    }
  }

  /** The token a registration returns, sent back as `Bearer <token>` while still
      unexpired, opens `/me` on the new account: its stored row, status 'active',
      created now and never logged in. */
  lemma RegisterTokenOpensMe(env: Env, env2: Env, st: Store, b: RegisterBody, fault: Fault)
    requires Lawful(env.crypto) && Valid(st)
    requires env2.crypto == env.crypto
    requires RegisterErrors(env.emails, b) == []
    requires forall i :: 0 <= i < |st.users| ==> st.users[i].email != Sanitized(env.emails, b).email
    requires env.crypto.verify(env.crypto.sign(Claims(st.nextUserId, Sanitized(env.emails, b).email,
                                                      "user"), env.now)).value.unexpired
    requires fault != Some(Connect) && fault != Some(FindUser) && fault != Some(FindMemberships)
    ensures var o := Register(env, st, b, None);
            && o.response.body.Registered?
            && Me(env2, o.store, Some("Bearer " + o.response.body.token), fault).response
               == Response(200, CurrentUser(
                    Profile(st.nextUserId, Sanitized(env.emails, b).email,
                            Sanitized(env.emails, b).fullName, "user", "active", env.now, None),
                    MembershipViews(MembershipsOf(o.store.organizations, o.store.memberships,
                                                  st.nextUserId), true)))
  {
    var reg := Sanitized(env.emails, b);
    var u := NewUser(env, st, reg);
    RegisterSucceeds(env, st, b, None);
    RegisterKeepsStoreValid(env, st, b, None);
    var o := Register(env, st, b, None);
    var c := Claims(u.id, u.email, "user");
    assert o.response.body.token == env.crypto.sign(c, env.now);
    SignedTokenGranted(env.crypto, c, env.now);
    assert o.store.users[|st.users|] == u;
    MeReturnsStoredRow(o.store, c, fault, |st.users|);
  }
}

=== FILE: session.dfy ===
/** `GET /me` and `POST /logout` (routes/auth.js:192-241), both behind
    `authenticateToken`. */
module SessionRoutes {
  import opened Wrappers
  import opened Database
  import opened Tokens
  import opened Responses
  import opened Middleware

  /** The `user` object of `/me`, built from the row just read. */
  function ProfileOf(u: User): (p: Profile)
  {
    Profile(u.id, u.email, u.fullName, u.role, u.status, u.createdAt, u.lastLogin)
  }

  function MeError(st: Store, pool: Pool): (o: Outcome)
  {
    Outcome(Response(500, Error(GetUserFailed)), st, pool)
  }

  /** The `/me` handler (lines 193-234) run with the claims the gate decoded. */
  function MeHandler(st: Store, claims: Claims, fault: Fault): (o: Outcome)
    ensures o.store == st
    ensures o.pool.releases <= 1
    ensures o.response.status != 500 ==> ReleasesWhatItHolds(o.pool)
    ensures o.response.status in {200, 404, 500}
  {
    if fault == Some(Connect) then MeError(st, NoConnection)
    else if fault == Some(FindUser) then MeError(st, Leaked)
    else match FindUserById(st.users, claims.userId)
      case None => Outcome(Response(404, Error(UserNotFound)), st, ReleasedOnce)
      case Some(u) =>
        if fault == Some(FindMemberships) then MeError(st, Leaked)
        else
          var orgs := MembershipViews(MembershipsOf(st.organizations, st.memberships, u.id), true);
          Outcome(Response(200, CurrentUser(ProfileOf(u), orgs)), st, ReleasedOnce)
  }

  /** `GET /me`: the gate, then the handler. */
  function Me(env: Env, st: Store, header: Option<string>, fault: Fault): (o: Outcome)
    ensures o.store == st
    ensures Authenticate(env.crypto, header).Denied? ==>
              o == Outcome(Authenticate(env.crypto, header).response, st, NoConnection)
    ensures o.response.status == 200 ==> Authenticate(env.crypto, header).Granted?
  {
    match Authenticate(env.crypto, header)
    case Denied(r) => Outcome(r, st, NoConnection)
    case Granted(c) => MeHandler(st, c, fault)
  }

  /** `POST /logout`: the gate, then a fixed answer. Nothing is revoked. */
  function Logout(env: Env, st: Store, header: Option<string>): (o: Outcome)
    ensures o.store == st && o.pool == NoConnection
    ensures Authenticate(env.crypto, header).Denied? ==>
              o.response == Authenticate(env.crypto, header).response
    ensures o.response.status == 200 <==> Authenticate(env.crypto, header).Granted?
    ensures o.response.status == 200 ==> o.response.body == LoggedOut("Logout successful")
  {
    match Authenticate(env.crypto, header)
    case Denied(r) => Outcome(r, st, NoConnection)
    case Granted(_) => Outcome(Response(200, LoggedOut("Logout successful")), st, NoConnection)
  }

  // ---------------------------------------------------------------------------
  // Properties

  /** `/me` answers from the row whose id the token names: the token's email and
      role are not read, so two tokens for the same id get the same answer. */
  lemma MeReadsOnlyTheId(st: Store, c1: Claims, c2: Claims, fault: Fault)
    requires c1.userId == c2.userId
    ensures MeHandler(st, c1, fault) == MeHandler(st, c2, fault)
  {
  }

  /** With unique ids, the profile `/me` returns is the stored row of the token's
      user, whatever its status, with that user's memberships and their status. */
  lemma MeReturnsStoredRow(st: Store, claims: Claims, fault: Fault, i: nat)
    requires Valid(st)
    requires i < |st.users| && st.users[i].id == claims.userId
    requires fault != Some(Connect) && fault != Some(FindUser) && fault != Some(FindMemberships)
    ensures MeHandler(st, claims, fault)
         == Outcome(Response(200, CurrentUser(
                      ProfileOf(st.users[i]),
                      MembershipViews(MembershipsOf(st.organizations, st.memberships,
                                                    claims.userId), true))),
                    st, ReleasedOnce)
  {
    FindUniqueId(st, i);
  }

  /** A token for an id with no row (the user was deleted after the token was
      issued) gets 404 "User not found", and only such a token does. */
  lemma MeUserGone(st: Store, claims: Claims, fault: Fault)
    requires fault != Some(Connect) && fault != Some(FindUser)
    ensures MeHandler(st, claims, fault).response == Response(404, Error(UserNotFound))
        <==> (forall i :: 0 <= i < |st.users| ==> st.users[i].id != claims.userId)
  {
  }

  /** Logging out does not invalidate the token: every request made with it
      afterwards gets the answer it would have got before. */
  lemma LogoutDoesNotRevoke(env: Env, st: Store, header: Option<string>, fault: Fault)
    ensures Me(env, Logout(env, st, header).store, header, fault) == Me(env, st, header, fault)
    ensures Logout(env, Logout(env, st, header).store, header) == Logout(env, st, header)
  {
  }
}

=== FILE: slugs.dfy ===
/** The organisation slug of `routes/auth.js`:

      name.toLowerCase()
          .replace(/[^a-z0-9]/g, '-')   -- Mask
          .replace(/-+/g, '-')          -- Collapse
          .replace(/^-|-$/g, '')        -- TrimDash

    Each stage is one function below; `Slug` composes them. The reference definition
    `JoinWith(Words(Lower(name)), '-')` (the lower-cased words of the name, joined by
    single dashes) is proved equal to it. */
module Slugs {
  import opened Text

  predicate IsAlnum(c: char) { 'a' <= c <= 'z' || '0' <= c <= '9' }

  predicate IsSlugChar(c: char) { IsAlnum(c) || c == '-' }

  /** Every character is in `[a-z0-9-]`. */
  predicate InSlugAlphabet(s: string)
  {
    forall i :: 0 <= i < |s| ==> IsSlugChar(s[i])
  }

  /** No two adjacent dashes. */
  predicate NoDoubleDash(s: string)
  {
    forall i :: 0 <= i < |s| - 1 ==> !(s[i] == '-' && s[i + 1] == '-')
  }

  /** Neither the first nor the last character is a dash. */
  predicate NoEdgeDash(s: string)
  {
    s == [] || (s[0] != '-' && s[|s| - 1] != '-')
  }

  predicate IsSlug(s: string)
  {
    InSlugAlphabet(s) && NoDoubleDash(s) && NoEdgeDash(s)
  }

  /** JavaScript's `toLowerCase` on one character, as far as a slug can observe it:
      A-Z become a-z, U+0130 becomes "i" plus a combining dot and the Kelvin sign
      becomes "k"; every other character is kept, which is exact for the slug because
      every other character outside [a-z0-9] lower-cases to characters outside
      [a-z0-9]. */
  function LowerChar(c: char): (r: string)
  {
    if 'A' <= c <= 'Z' then [(c as int + 32) as char]
    else if c == '\U{0130}' then ['i', '\U{0307}']
    else if c == '\U{212A}' then ['k']
    else [c]
  }

  function Lower(s: string): (r: string)
  {
    if s == [] then [] else LowerChar(s[0]) + Lower(s[1..])
  }

  /** Lower-casing works character by character. */
  lemma {:induction false} LowerAppend(a: string, b: string)
    ensures Lower(a + b) == Lower(a) + Lower(b)
    decreases |a|
  {
    if a == [] {
      assert a + b == b;
    } else {
      assert (a + b)[1..] == a[1..] + b;
      LowerAppend(a[1..], b);
    }
  }

  /** `.replace(/[^a-z0-9]/g, '-')`: every character outside [a-z0-9] becomes a dash. */
  function Mask(s: string): (r: string)
    ensures |r| == |s|
    ensures forall i :: 0 <= i < |s| ==> r[i] == (if IsAlnum(s[i]) then s[i] else '-')
  {
    if s == [] then [] else [if IsAlnum(s[0]) then s[0] else '-'] + Mask(s[1..])
  }

  /** `.replace(/-+/g, '-')`: every run of dashes becomes one dash. A dash followed by
      another dash is dropped, so each run keeps its last dash. */
  function Collapse(s: string): (r: string)
    ensures |r| <= |s|
  {
    if |s| <= 1 then s
    else if s[0] == '-' && s[1] == '-' then Collapse(s[1..])
    else [s[0]] + Collapse(s[1..])
  }

  /** What collapsing keeps: the first and last characters, no two adjacent dashes,
      and no character that was not there. */
  lemma {:induction false} CollapseShape(s: string)
    ensures |s| > 0 ==> |Collapse(s)| > 0 && Collapse(s)[0] == s[0]
    ensures |s| > 0 ==> Collapse(s)[|Collapse(s)| - 1] == s[|s| - 1]
    ensures NoDoubleDash(Collapse(s))
    ensures forall i :: 0 <= i < |Collapse(s)| ==> Collapse(s)[i] in s
    decreases |s|
  {
    if |s| > 1 {
      CollapseShape(s[1..]);
      var c := Collapse(s[1..]);
      if !(s[0] == '-' && s[1] == '-') {
        assert Collapse(s) == [s[0]] + c;
        assert forall i :: 1 <= i < |Collapse(s)| ==> Collapse(s)[i] == c[i - 1];
      }
      assert forall x :: x in s[1..] ==> x in s;
    }
  }

  /** `.replace(/^-|-$/g, '')`: removes one leading dash and one trailing dash. A lone
      dash is removed once (the leading match consumes it). */
  function TrimDash(s: string): (r: string)
    ensures |r| <= |s|
  {
    var a := if |s| > 0 && s[0] == '-' then 1 else 0;
    var b := if |s| > a && s[|s| - 1] == '-' then |s| - 1 else |s|;
    s[a..b]
  }

  /** The slug stored for an organisation named `name` (routes/auth.js:52-55). */
  function Slug(name: string): (r: string)
  {
    TrimDash(Collapse(Mask(Lower(name))))
  }

  // ---------------------------------------------------------------------------
  // Character rules

  /** The slug contains only [a-z0-9-], never "--", and no leading or trailing dash. */
  lemma SlugIsWellFormed(name: string)
    ensures InSlugAlphabet(Slug(name))
    ensures NoDoubleDash(Slug(name))
    ensures NoEdgeDash(Slug(name))
  {
    var m := Mask(Lower(name));
    var c := Collapse(m);
    CollapseShape(m);
    assert InSlugAlphabet(c) by {
      forall i | 0 <= i < |c| ensures IsSlugChar(c[i]) {
        var j :| 0 <= j < |m| && m[j] == c[i];
      }
    }
    TrimDashKeepsForm(c);
  }

  lemma TrimDashKeepsForm(c: string)
    requires InSlugAlphabet(c) && NoDoubleDash(c)
    ensures IsSlug(TrimDash(c))
  {
    var r := TrimDash(c);
    var a := if |c| > 0 && c[0] == '-' then 1 else 0;
    assert forall i :: 0 <= i < |r| ==> r[i] == c[a + i];
    if r != [] {
      assert r[0] == c[a];
      if a == 1 {
        assert !(c[0] == '-' && c[1] == '-');
      }
      var b := a + |r|;
      assert r[|r| - 1] == c[b - 1];
    }
  }

  // ---------------------------------------------------------------------------
  // Idempotence

  lemma {:induction false} LowerKeepsSlugChars(s: string)
    requires InSlugAlphabet(s)
    ensures Lower(s) == s
    decreases |s|
  {
    if s != [] {
      LowerKeepsSlugChars(s[1..]);
      assert s == [s[0]] + s[1..];
    }
  }

  lemma {:induction false} CollapseKeepsSingleDashes(s: string)
    requires NoDoubleDash(s)
    ensures Collapse(s) == s
    decreases |s|
  {
    if |s| > 1 {
      assert !(s[0] == '-' && s[1] == '-');
      CollapseKeepsSingleDashes(s[1..]);
      assert s == [s[0]] + s[1..];
    }
  }

  /** A well-formed slug is its own slug. */
  lemma SlugFixesSlugs(w: string)
    requires IsSlug(w)
    ensures Slug(w) == w
  {
    LowerKeepsSlugChars(w);
    assert Mask(w) == w;
    CollapseKeepsSingleDashes(w);
  }

  /** Deriving a slug from a slug changes nothing. */
  lemma SlugIdempotent(name: string)
    ensures Slug(Slug(name)) == Slug(name)
  {
    SlugIsWellFormed(name);
    SlugFixesSlugs(Slug(name));
  }

  // ---------------------------------------------------------------------------
  // Order of the kept characters

  /** The characters of `s` other than '-', in order. */
  function Undash(s: string): (r: string)
  {
    if s == [] then [] else (if s[0] == '-' then [] else [s[0]]) + Undash(s[1..])
  }

  /** The characters of `s` in [a-z0-9], in order. */
  function Alnums(s: string): (r: string)
  {
    if s == [] then [] else (if IsAlnum(s[0]) then [s[0]] else []) + Alnums(s[1..])
  }

  lemma {:induction false} UndashAppend(a: string, b: string)
    ensures Undash(a + b) == Undash(a) + Undash(b)
    decreases |a|
  {
    if a == [] {
      assert a + b == b;
    } else {
      assert (a + b)[0] == a[0];
      assert (a + b)[1..] == a[1..] + b;
      UndashAppend(a[1..], b);
    }
  }

  lemma {:induction false} UndashMask(s: string)
    ensures Undash(Mask(s)) == Alnums(s)
    decreases |s|
  {
    if s != [] {
      UndashMask(s[1..]);
      assert Mask(s)[1..] == Mask(s[1..]);
    }
  }

  lemma {:induction false} UndashCollapse(s: string)
    ensures Undash(Collapse(s)) == Undash(s)
    decreases |s|
  {
    if |s| > 1 {
      UndashCollapse(s[1..]);
      if !(s[0] == '-' && s[1] == '-') {
        assert ([s[0]] + Collapse(s[1..]))[1..] == Collapse(s[1..]);
      }
    } else if |s| == 1 {
      assert s[1..] == [];
    }
  }

  lemma UndashTrimDash(s: string)
    ensures Undash(TrimDash(s)) == Undash(s)
  {
    var a := if |s| > 0 && s[0] == '-' then 1 else 0;
    var b := if |s| > a && s[|s| - 1] == '-' then |s| - 1 else |s|;
    assert s == s[..a] + s[a..b] + s[b..];
    UndashAppend(s[..a] + s[a..b], s[b..]);
    UndashAppend(s[..a], s[a..b]);
    assert Undash(s[..a]) == [] by {
      if a == 1 { assert s[..a] == ['-']; } else { assert s[..a] == []; }
    }
    assert Undash(s[b..]) == [] by {
      if b < |s| { assert s[b..] == ['-']; } else { assert s[b..] == []; }
    }
  }

  /** Removing the dashes from the slug leaves exactly the [a-z0-9] characters of the
      lower-cased name, in their original order. */
  lemma SlugKeepsAlnumsInOrder(name: string)
    ensures Undash(Slug(name)) == Alnums(Lower(name))
  {
    var l := Lower(name);
    UndashTrimDash(Collapse(Mask(l)));
    UndashCollapse(Mask(l));
    UndashMask(l);
  }

  lemma {:induction false} UndashEmptyMeansDashes(s: string)
    requires Undash(s) == []
    ensures forall i :: 0 <= i < |s| ==> s[i] == '-'
    decreases |s|
  {
    if s != [] {
      UndashEmptyMeansDashes(s[1..]);
      assert forall i :: 1 <= i < |s| ==> s[i] == s[1..][i - 1];
    }
  }

  /** The slug is empty exactly when the lower-cased name has no [a-z0-9] character
      (a name made only of symbols). */
  lemma SlugEmptyIffNoAlnum(name: string)
    ensures Slug(name) == [] <==> Alnums(Lower(name)) == []
  {
    SlugKeepsAlnumsInOrder(name);
    SlugIsWellFormed(name);
    var r := Slug(name);
    if Alnums(Lower(name)) == [] && r != [] {
      UndashEmptyMeansDashes(r);
    }
  }

  // ---------------------------------------------------------------------------
  // Reference definition: the words of the name joined by single dashes

  /** The maximal runs of [a-z0-9] characters of `s`, with `cur` the part of the first
      run already read. */
  function WordsFrom(s: string, cur: string): (r: seq<string>)
  {
    if s == [] then (if cur == [] then [] else [cur])
    else if !IsAlnum(s[0]) then
      (if cur == [] then [] else [cur]) + WordsFrom(s[1..], [])
    else WordsFrom(s[1..], cur + [s[0]])
  }

  function Words(s: string): (r: seq<string>)
  {
    WordsFrom(s, [])
  }

  /** A one-pass reading of the slug: copy [a-z0-9] characters, skip the others, and
      put one dash before a character when something was copied already and skipped
      characters came in between. `started`: something was copied; `pending`: a dash
      is owed before the next copied character. */
  function Separate(s: string, started: bool, pending: bool): (r: string)
  {
    if s == [] then []
    else if !IsAlnum(s[0]) then Separate(s[1..], started, started)
    else (if pending then "-" else "") + [s[0]] + Separate(s[1..], true, false)
  }

  lemma {:induction false} SeparateIgnoresMask(s: string, started: bool, pending: bool)
    ensures Separate(Mask(s), started, pending) == Separate(s, started, pending)
    decreases |s|
  {
    if s != [] {
      assert Mask(s)[1..] == Mask(s[1..]);
      SeparateIgnoresMask(s[1..], started, started);
      SeparateIgnoresMask(s[1..], true, false);
    }
  }

  lemma {:induction false} SeparateIgnoresCollapse(s: string, started: bool, pending: bool)
    ensures Separate(Collapse(s), started, pending) == Separate(s, started, pending)
    decreases |s|
  {
    if |s| > 1 {
      if s[0] == '-' && s[1] == '-' {
        SeparateIgnoresCollapse(s[1..], started, pending);
        assert s[1..][1..] == s[2..];
      } else {
        var c := Collapse(s[1..]);
        assert ([s[0]] + c)[1..] == c;
        SeparateIgnoresCollapse(s[1..], started, started);
        SeparateIgnoresCollapse(s[1..], true, false);
      }
    }
  }

  function DropTrailingDash(s: string): (r: string)
  {
    if |s| > 0 && s[|s| - 1] == '-' then s[..|s| - 1] else s
  }

  lemma {:induction false} SeparateStartedDropsTrailingDash(c: string)
    requires InSlugAlphabet(c) && NoDoubleDash(c)
    ensures Separate(c, true, false) == DropTrailingDash(c)
    decreases |c|
  {
    if |c| > 1 {
      var d := c[1..];
      assert InSlugAlphabet(d) && NoDoubleDash(d);
      SeparateStartedDropsTrailingDash(d);
      if c[0] == '-' {
        assert IsAlnum(d[0]) by {
          assert !(c[0] == '-' && c[1] == '-');
        }
        assert Separate(c, true, false) == "-" + Separate(d, true, false);
      } else {
        assert Separate(c, true, false) == [c[0]] + Separate(d, true, false);
      }
      assert c == [c[0]] + d;
      assert c[|c| - 1] == d[|d| - 1];
      assert c[..|c| - 1] == [c[0]] + d[..|d| - 1];
    } else if |c| == 1 {
      assert c[1..] == [];
    }
  }

  /** A string that starts with a kept character reads the same whether or not
      something was copied before it. */
  lemma SeparateFromKeptChar(c: string, started: bool)
    requires c != [] && IsAlnum(c[0])
    ensures Separate(c, started, false) == [c[0]] + Separate(c[1..], true, false)
  {
  }

  lemma SeparateMatchesTrimDash(c: string)
    requires InSlugAlphabet(c) && NoDoubleDash(c)
    ensures Separate(c, false, false) == TrimDash(c)
  {
    if c == [] {
    } else if IsAlnum(c[0]) {
      SeparateFromKeptChar(c, false);
      SeparateFromKeptChar(c, true);
      SeparateStartedDropsTrailingDash(c);
      assert TrimDash(c) == DropTrailingDash(c);
    } else if |c| == 1 {
      assert Separate(c, false, false) == Separate([], false, false);
    } else {
      var d := c[1..];
      assert c[0] == '-' && IsAlnum(d[0]) by {
        assert !(c[0] == '-' && c[1] == '-');
      }
      assert InSlugAlphabet(d) && NoDoubleDash(d);
      assert Separate(c, false, false) == Separate(d, false, false);
      SeparateFromKeptChar(d, false);
      SeparateFromKeptChar(d, true);
      SeparateStartedDropsTrailingDash(d);
      assert TrimDash(c) == DropTrailingDash(d);
    }
  }

  /** Owing a dash only adds one in front, and only when something follows. */
  lemma {:induction false} SeparatePending(s: string)
    ensures Separate(s, true, true)
         == (if Separate(s, false, false) == [] then [] else "-" + Separate(s, false, false))
    decreases |s|
  {
    if s != [] && !IsAlnum(s[0]) {
      SeparatePending(s[1..]);
    }
  }

  lemma {:induction false} WordsAreNonEmpty(s: string, cur: string)
    ensures forall w :: w in WordsFrom(s, cur) ==> w != []
    decreases |s|
  {
    if s == [] {
    } else if !IsAlnum(s[0]) {
      WordsAreNonEmpty(s[1..], []);
    } else {
      WordsAreNonEmpty(s[1..], cur + [s[0]]);
    }
  }

  lemma JoinedNonEmptyWords(ws: seq<string>)
    requires forall w :: w in ws ==> w != []
    ensures JoinWith(ws, '-') == [] <==> ws == []
  {
    if |ws| >= 2 {
      assert ws[0] in ws;
    } else if |ws| == 1 {
      assert ws[0] in ws;
    }
  }

  lemma {:induction false} JoinedWordsFrom(s: string, cur: string)
    ensures JoinWith(WordsFrom(s, cur), '-') == cur + Separate(s, cur != [], false)
    decreases |s|
  {
    if s == [] {
    } else if !IsAlnum(s[0]) {
      var rest := WordsFrom(s[1..], []);
      JoinedWordsFrom(s[1..], []);
      assert JoinWith(rest, '-') == Separate(s[1..], false, false);
      SeparatePending(s[1..]);
      if cur != [] {
        assert WordsFrom(s, cur) == [cur] + rest;
        assert Separate(s, true, false) == Separate(s[1..], true, true);
        WordsAreNonEmpty(s[1..], []);
        JoinedNonEmptyWords(rest);
        if rest == [] {
          assert [cur] + rest == [cur];
        } else {
          assert ([cur] + rest)[1..] == rest;
          assert JoinWith([cur] + rest, '-') == cur + "-" + JoinWith(rest, '-');
        }
      } else {
        assert WordsFrom(s, cur) == [] + rest;
        assert [] + rest == rest;
      }
    } else {
      JoinedWordsFrom(s[1..], cur + [s[0]]);
      assert Separate(s, cur != [], false) == [s[0]] + Separate(s[1..], true, false);
    }
  }

  /** The slug is the words (maximal [a-z0-9] runs) of the lower-cased name, joined
      by single dashes. */
  lemma SlugIsJoinedWords(name: string)
    ensures Slug(name) == JoinWith(Words(Lower(name)), '-')
  {
    var l := Lower(name);
    var c := Collapse(Mask(l));
    CollapseShape(Mask(l));
    assert InSlugAlphabet(c) by {
      forall i | 0 <= i < |c| ensures IsSlugChar(c[i]) {
        var j :| 0 <= j < |Mask(l)| && Mask(l)[j] == c[i];
      }
    }
    SeparateMatchesTrimDash(c);
    SeparateIgnoresCollapse(Mask(l), false, false);
    SeparateIgnoresMask(l, false, false);
    JoinedWordsFrom(l, []);
  }

}

/** Two worked names: trailing symbols become one dash that is then dropped; edge
    padding and an inner run of spaces become dashes that collapse and are trimmed. */
module SlugExamples {
  import opened Slugs

  // The stages recurse on `s[1..]`, which the verifier does not evaluate on a literal
  // reliably; these index-walking forms of the two recursive stages it does evaluate,
  // and each is proved equal to its stage.

  function LowerAt(s: string, i: nat): (r: string)
    requires i <= |s|
    decreases |s| - i
  {
    if i == |s| then [] else LowerChar(s[i]) + LowerAt(s, i + 1)
  }

  lemma {:induction false} LowerAtIsLower(s: string, i: nat)
    requires i <= |s|
    ensures LowerAt(s, i) == Lower(s[i..])
    decreases |s| - i
  {
    if i < |s| {
      LowerAtIsLower(s, i + 1);
      assert s[i..][1..] == s[i + 1..];
    }
  }

  function CollapseAt(s: string, i: nat): (r: string)
    requires i <= |s|
    decreases |s| - i
  {
    if |s| - i <= 1 then s[i..]
    else if s[i] == '-' && s[i + 1] == '-' then CollapseAt(s, i + 1)
    else [s[i]] + CollapseAt(s, i + 1)
  }

  lemma {:induction false} CollapseAtIsCollapse(s: string, i: nat)
    requires i <= |s|
    ensures CollapseAt(s, i) == Collapse(s[i..])
    decreases |s| - i
  {
    if |s| - i > 1 {
      CollapseAtIsCollapse(s, i + 1);
      assert s[i..][1..] == s[i + 1..];
    }
  }

  lemma MyOrgLowered() ensures Lower("My Org!!") == "my org!!"
  {
    assert LowerAt("My Org!!", 0) == "my org!!";
    LowerAtIsLower("My Org!!", 0);
  }

  lemma MyOrgMasked() ensures Mask("my org!!") == "my-org--" {}

  lemma MyOrgCollapsed() ensures Collapse("my-org--") == "my-org-"
  {
    assert CollapseAt("my-org--", 0) == "my-org-";
    CollapseAtIsCollapse("my-org--", 0);
  }

  lemma MyOrgTrimmed() ensures TrimDash("my-org-") == "my-org" {}

  /** Runs of symbols become one dash and the trailing dash goes. */
  lemma SlugOfMyOrg()
    ensures Slug("My Org!!") == "my-org"
  {
    MyOrgLowered();
    MyOrgMasked();
    MyOrgCollapsed();
    MyOrgTrimmed();
  }

  lemma PaddedLowered() ensures Lower(" Foo  Bar ") == " foo  bar "
  {
    assert LowerAt(" Foo  Bar ", 0) == " foo  bar ";
    LowerAtIsLower(" Foo  Bar ", 0);
  }

  lemma PaddedMasked() ensures Mask(" foo  bar ") == "-foo--bar-" {}

  lemma PaddedCollapsed() ensures Collapse("-foo--bar-") == "-foo-bar-"
  {
    assert CollapseAt("-foo--bar-", 0) == "-foo-bar-";
    CollapseAtIsCollapse("-foo--bar-", 0);
  }

  lemma PaddedTrimmed() ensures TrimDash("-foo-bar-") == "foo-bar" {}

  /** Edges are trimmed and the inner run of spaces becomes one dash. */
  lemma SlugOfPaddedName()
    ensures Slug(" Foo  Bar ") == "foo-bar"
  {
    PaddedLowered();
    PaddedMasked();
    PaddedCollapsed();
    PaddedTrimmed();
  }
}

=== FILE: text.dfy ===
/** String helpers with the JavaScript semantics the auth router relies on:
    `String.prototype.split` with a one-character separator, joining with a
    separator, and the whitespace trimming done by express-validator's `trim()`. */
module Text {

  /** The characters matched by `\s` in a JavaScript regular expression. */
  predicate IsJsWhitespace(c: char)
  {
    || c == ' ' || c == '\t' || c == '\n' || c == '\r'
    || c == '\U{000B}' || c == '\U{000C}' || c == '\U{00A0}' || c == '\U{1680}'
    || ('\U{2000}' <= c <= '\U{200A}')
    || c == '\U{2028}' || c == '\U{2029}' || c == '\U{202F}' || c == '\U{205F}'
    || c == '\U{3000}' || c == '\U{FEFF}'
  }

  /** Removes leading whitespace: the result is the suffix of `s` that starts at the
      first non-whitespace character. */
  function TrimStart(s: string): (r: string)
    ensures |r| <= |s| && r == s[|s| - |r|..]
    ensures forall i :: 0 <= i < |s| - |r| ==> IsJsWhitespace(s[i])
    ensures r == [] || !IsJsWhitespace(r[0])
  {
    if s != [] && IsJsWhitespace(s[0]) then TrimStart(s[1..]) else s
  }

  /** Removes trailing whitespace: the result is the prefix of `s` that ends at the
      last non-whitespace character. */
  function TrimEnd(s: string): (r: string)
    ensures |r| <= |s| && r == s[..|r|]
    ensures forall i :: |r| <= i < |s| ==> IsJsWhitespace(s[i])
    ensures r == [] || !IsJsWhitespace(r[|r| - 1])
  {
    if s != [] && IsJsWhitespace(s[|s| - 1]) then TrimEnd(s[..|s| - 1]) else s
  }

  /** express-validator's `trim()` sanitiser with no argument: `s[a..b]` with only
      whitespace outside it and no whitespace at its edges. */
  function Trim(s: string): (r: string)
    ensures r == [] || (!IsJsWhitespace(r[0]) && !IsJsWhitespace(r[|r| - 1]))
    ensures exists a, b :: 0 <= a <= b <= |s| && r == s[a..b]
              && (forall i :: 0 <= i < a ==> IsJsWhitespace(s[i]))
              && (forall i :: b <= i < |s| ==> IsJsWhitespace(s[i]))
  {
    var t := TrimStart(s);
    var r := TrimEnd(t);
    var a := |s| - |t|;
    assert r == s[a..a + |r|];
    assert forall i :: a + |r| <= i < |s| ==> s[i] == t[i - a];
    r
  }

  /** Trimming twice is trimming once. */
  lemma TrimIdempotent(s: string)
    ensures Trim(Trim(s)) == Trim(s)
  {
    var r := Trim(s);
    if r != [] {
      assert TrimStart(r) == r;
      assert TrimEnd(r) == r;
    }
  }

  /** `s.split(sep)` for a one-character separator: the pieces between separators,
      empty pieces included, and always at least one piece (`"".split(" ")` is `[""]`). */
  function Split(s: string, sep: char): (r: seq<string>)
  {
    SplitFrom(s, sep, [])
  }

  /** Splits `s`, with `cur` the part of the first piece already read. */
  function SplitFrom(s: string, sep: char, cur: string): (r: seq<string>)
    ensures |r| >= 1
  {
    if s == [] then [cur]
    else if s[0] == sep then [cur] + SplitFrom(s[1..], sep, [])
    else SplitFrom(s[1..], sep, cur + [s[0]])
  }

  /** `pieces.join(sep)`. */
  function JoinWith(pieces: seq<string>, sep: char): (r: string)
  {
    if |pieces| == 0 then []
    else if |pieces| == 1 then pieces[0]
    else pieces[0] + [sep] + JoinWith(pieces[1..], sep)
  }

  /** No piece produced by `Split` contains the separator. */
  lemma {:induction false} SplitPiecesHaveNoSeparator(s: string, sep: char, cur: string)
    requires sep !in cur
    ensures forall p :: p in SplitFrom(s, sep, cur) ==> sep !in p
    decreases |s|
  {
    if s == [] {
    } else if s[0] == sep {
      SplitPiecesHaveNoSeparator(s[1..], sep, []);
    } else {
      SplitPiecesHaveNoSeparator(s[1..], sep, cur + [s[0]]);
    }
  }

  /** Joining the pieces of a split gives back the original text. */
  lemma {:induction false} JoinSplitFrom(s: string, sep: char, cur: string)
    ensures JoinWith(SplitFrom(s, sep, cur), sep) == cur + s
    decreases |s|
  {
    if s == [] {
    } else if s[0] == sep {
      var rest := SplitFrom(s[1..], sep, []);
      JoinSplitFrom(s[1..], sep, []);
      assert ([cur] + rest)[1..] == rest;
      assert s == [sep] + s[1..];
    } else {
      JoinSplitFrom(s[1..], sep, cur + [s[0]]);
      assert s == [s[0]] + s[1..];
    }
  }

  lemma JoinSplit(s: string, sep: char)
    ensures JoinWith(Split(s, sep), sep) == s
    ensures forall p :: p in Split(s, sep) ==> sep !in p
  {
    JoinSplitFrom(s, sep, []);
    SplitPiecesHaveNoSeparator(s, sep, []);
  }

  /** Reading a separator-free piece only extends the current piece. */
  lemma {:induction false} SplitFromSkipsPiece(p: string, rest: string, sep: char, cur: string)
    requires sep !in p
    ensures SplitFrom(p + rest, sep, cur) == SplitFrom(rest, sep, cur + p)
    decreases |p|
  {
    if p == [] {
      assert p + rest == rest;
      assert cur + p == cur;
    } else {
      assert (p + rest)[0] == p[0];
      assert (p + rest)[1..] == p[1..] + rest;
      SplitFromSkipsPiece(p[1..], rest, sep, cur + [p[0]]);
      assert cur + [p[0]] + p[1..] == cur + p;
    }
  }

  /** A piece followed by a separator splits off as the first piece. */
  lemma SplitFromPieceThenSeparator(p: string, rest: string, sep: char, cur: string)
    requires sep !in p
    ensures SplitFrom(p + [sep] + rest, sep, cur) == [cur + p] + SplitFrom(rest, sep, [])
  {
    assert p + [sep] + rest == p + ([sep] + rest);
    SplitFromSkipsPiece(p, [sep] + rest, sep, cur);
    assert ([sep] + rest)[1..] == rest;
  }

  /** Splitting a join of separator-free pieces gives back the pieces (the converse
      round trip of `JoinSplit`). */
  lemma {:induction false} SplitJoinFrom(pieces: seq<string>, sep: char, cur: string)
    requires |pieces| >= 1
    requires forall i :: 0 <= i < |pieces| ==> sep !in pieces[i]
    ensures SplitFrom(JoinWith(pieces, sep), sep, cur) == [cur + pieces[0]] + pieces[1..]
    decreases |pieces|
  {
    if |pieces| == 1 {
      assert pieces[0] + [] == pieces[0];
      SplitFromSkipsPiece(pieces[0], [], sep, cur);
    } else {
      var tail := pieces[1..];
      SplitFromPieceThenSeparator(pieces[0], JoinWith(tail, sep), sep, cur);
      SplitJoinFrom(tail, sep, []);
      assert [] + tail[0] == tail[0];
      assert [tail[0]] + tail[1..] == tail;
    }
  }

  lemma SplitJoin(pieces: seq<string>, sep: char)
    requires |pieces| >= 1
    requires forall i :: 0 <= i < |pieces| ==> sep !in pieces[i]
    ensures Split(JoinWith(pieces, sep), sep) == pieces
  {
    SplitJoinFrom(pieces, sep, []);
    assert [] + pieces[0] == pieces[0];
    assert [pieces[0]] + pieces[1..] == pieces;
  }
}

=== FILE: tokens.dfy ===
/** The libraries the router calls but this model does not look inside: bcrypt,
    jsonwebtoken and express-validator's email rules. Each is a function-valued
    field, so any implementation can be plugged in; `Lawful` states the only facts
    the router relies on. */
module Tokens {
  import opened Wrappers

  /** The claims the router signs: `{ userId, email, role }`. */
  datatype Claims = Claims(userId: nat, email: string, role: string)

  /** What `jwt.verify` yields for a well-signed token: its claims and whether it is
      still within its lifetime (the `'7d'` expiry is decided by the library). */
  datatype Decoded = Decoded(claims: Claims, unexpired: bool)

  datatype Crypto = Crypto(
    /** `bcrypt.hash(password, 12)` with the salt it draws. */
    hash: (string, string) -> string,
    /** `bcrypt.compare(password, hash)`. */
    compare: (string, string) -> bool,
    /** `jwt.sign(claims, secret, { expiresIn })` at a given time. */
    sign: (Claims, int) -> string,
    /** `jwt.verify(token, secret)`: `None` for a token that is malformed or not
        signed with the secret. */
    verify: string -> Option<Decoded>)

  /** A password matches its own hash; a signed token verifies to the claims it
      carries; and a token is a non-empty word (base64url parts joined by dots, so no
      spaces). */
  ghost predicate Lawful(k: Crypto)
  {
    && (forall password, salt :: k.compare(password, k.hash(password, salt)))
    && (forall c, t :: k.verify(k.sign(c, t)).Some? && k.verify(k.sign(c, t)).value.claims == c)
    && (forall c, t :: k.sign(c, t) != [] && ' ' !in k.sign(c, t))
  }

  /** express-validator's `isEmail()` and `normalizeEmail()`. */
  datatype EmailRules = EmailRules(isEmail: string -> bool, normalize: string -> string)

  /** `body('email').isEmail()`: a missing email is read as "" and rejected. */
  predicate EmailAccepted(rules: EmailRules, email: Option<string>)
  {
    email.Some? && rules.isEmail(email.value)
  }

  /** What a request sees of the outside world: the libraries, the clock (for
      `created_at`, `last_login` and the token's issue time) and the salt bcrypt draws. */
  datatype Env = Env(crypto: Crypto, emails: EmailRules, now: int, salt: string)
}

=== FILE: wrappers.dfy ===
/** The optional value used throughout the model for JavaScript's `undefined`/`null`
    and for database lookups that may find no row. */
module Wrappers {

  datatype Option<+T> = None | Some(value: T)
}
